=== FILE: README.md ===
# A verified model of the WordPress reverse proxy with an API fast lane

`server.js` is an Express server that fronts a WordPress site, the backend origin given by
`TARGET_URL`. It forwards every request to the backend, and on the way back it replaces the
backend origin with the proxy's own base URL, `https://<Host>`, in the `location` header. The
rewriting proxy mounted at `/` does the same in every text body; bodies compressed with gzip,
deflate or Brotli are decompressed first and recompressed afterwards.

Three kinds of request are handled apart:
- **API calls.** A request whose path starts with `/v1` (a string prefix, so `/v1x/models`
  counts) and either names an AI endpoint or is JSON accepting an event stream is meant to go
  down a streaming lane that leaves the body alone. As the lane
  is registered, almost no API call reaches it (see "## Findings"); the model gives both the
  registration as written and the intended one.
- **Password submissions.** A request to `/wp-login.php` whose URL contains `action=postpass`,
  whatever its method, is answered by the proxy itself with a 302 back to the page it came
  from. The backend's cookies are passed on, each with the leftmost text matching
  `;?\s*domain=<value>` (in any letter case) cut out. That text is usually the `Domain`
  attribute, but it may lie inside the cookie's name or value.
- **Other `/wp-login.php` requests.** The backend's response is passed on byte for byte, with
  its `content-length` kept and only `location` rewritten. No body here is rewritten, not even
  the login page's HTML.

The model covers the pure parts of the proxy and the two `onProxyRes` handlers that rewrite
responses. Each handler is a method that copies and edits a mutable header object (the
`HeaderObject.HeaderTable` class) and is proved equal to a specification function of the
backend response. The properties the proxy promises are proved as lemmas about those
functions.

Modules:
- **`Http`**: requests, backend responses, replies, header objects as ordered lists of distinct
  properties, and `Buffer.concat`.
- **`HeaderObject`**: the mutable header object with `headers[n] = v` and `delete headers[n]`.
- **`OriginRegex`**: `new RegExp(targetUrl, 'g')` with `String.prototype.replace`. In the
  origin a `.` matches any character except a line terminator; matches are leftmost and do not
  overlap; `$` patterns in the replacement are expanded.
- **`UrlRewrite`**: `targetUrl`, `getNewBaseUrl`, the origin substitution, and the rewrite of
  `location`.
- **`GrokApi`**: `isGrokApiRequest`.
- **`Codec`**: zlib and UTF-8 conversion, taken as parameters, and the choice of compression by
  `content-encoding`.
- **`ResponseBody`**: `modifyResponseBody`.
- **`WpLogin`**: the `/wp-login.php` response handler, including the cookie regex
  `/;?\s*domain=[^;]+/i`.
- **`Routing`**: which of the three handlers answers a request.

Some of what the code does is not what a reader of the code's names and comments would expect
of such a proxy. The model follows the code, and these behaviours are proved as lemmas:
- The rewrite makes one pass and is case-sensitive. It is not idempotent
  (`UrlRewrite.RewriteNotIdempotent`).
- A `.` in the origin matches any character but a line terminator
  (`UrlRewrite.DotMatchesAnyCharacter`).
- When recompression fails, the body goes out uncompressed while `content-encoding` still names
  the compression (`ResponseBody.EncodeFailureSendsRewrittenPlain`).
- Each cookie loses only the leftmost case-insensitive `;?\s*domain=<value>`, wherever it
  occurs (`WpLogin.StripDomainRemovesLeftmostMatch`). When it is a real attribute, `Secure`,
  `Path` and `SameSite` are kept (`WpLogin.DomainAttributeRemoved`). When it occurs first
  inside the value, as in `a=xdomain=1; Domain=example.com`, the value is cut and the `Domain`
  attribute stays (`WpLogin.DomainTextCutInsideCookie`).
- A `/wp-login.php` response other than a password submission keeps the backend origin in its
  body, even for the HTML login page (`WpLogin.OtherResponsesPassThrough`).
- The `Referer` header is sent back as the redirect target without its origin being rewritten
  (`WpLogin.PostpassRedirects`).

## Model

| member | source | states |
|---|---|---|
| `UrlRewrite.TargetUrl` | server.js:19 | the origin is never empty: it is the environment value when that is set and non-empty, otherwise `https://targetUrl.com` |
| `UrlRewrite.DefaultTargetIsPlain` | server.js:19 | the default origin compiles under the model's regex restriction (no metacharacter but `.`) |
| `UrlRewrite.TargetUrlIsPlain` | server.js:19 | the origin chosen from the environment is plain whenever the environment's value, when used, is plain |
| `UrlRewrite.BaseUrl` | server.js:22-24 | the base URL is `https://` followed by the Host header, or by `undefined` when the request has none |
| `UrlRewrite.RewriteOrigin` | server.js:123 | definition: `text.replace(new RegExp(targetUrl, 'g'), getNewBaseUrl(req))` |
| `UrlRewrite.RewriteWithoutOriginIsIdentity` | server.js:123 | a text in which the origin occurs nowhere, reading each `.` of it as any non-line-terminator, is returned unchanged |
| `UrlRewrite.RewriteSingleOrigin` | server.js:123 | one literal occurrence of the origin is replaced by the base URL and the text around it is kept |
| `UrlRewrite.DotMatchesAnyCharacter` | server.js:123 | each `.` of the origin matches any non-line-terminator character, so a different host such as `blog-example.com` is rewritten too |
| `UrlRewrite.RewriteNotIdempotent` | server.js:123 | when the base URL plus the following text spells the origin again, a second rewrite changes the result again |
| `UrlRewrite.RewriteLocation` | server.js:122-124 | definition: a non-empty string `location` is replaced by its rewrite; any other object is returned as it is |
| `UrlRewrite.RewriteLocationEffect` | server.js:122-124 | rewriting `location` keeps the names distinct and in the same order; `location` holds the rewritten URL and every other property its old value |
| `OriginRegex.Compile` | server.js:123 | the compiled pattern has one atom per origin character |
| `OriginRegex.CompiledMatches` | server.js:123 | the compiled origin matches at an index exactly when the text there is the origin with a non-line-terminator at each `.` |
| `OriginRegex.MatchesAtEvery` | server.js:123 | the pattern matches at an index exactly when each of its atoms admits the character at its position |
| `OriginRegex.Expand` | server.js:123 | definition: GetSubstitution for a pattern without capture groups; `$$`, `$&`, `` $` `` and `$'` are expanded, any other character is copied |
| `OriginRegex.ExpandPlain` | server.js:123 | a replacement without `$` is inserted literally |
| `OriginRegex.ReplaceFrom` | server.js:123 | definition: the global scan from an index, replacing the match that begins there and resuming after it, or copying one character |
| `OriginRegex.ReplaceAll` | server.js:123 | definition: `replace` with a global pattern, the scan from index 0 |
| `OriginRegex.ReplaceSkip` | server.js:123 | a global replace copies a stretch without matches unchanged |
| `OriginRegex.ReplaceWithoutMatch` | server.js:123 | a global replace with no match anywhere returns the input |
| `OriginRegex.ReplaceSingle` | server.js:123 | a global replace with exactly one match substitutes exactly that match |
| `OriginRegex.HitsAreMatches` | server.js:123 | every replaced position is a match, and each replaced match begins at or after the end of the one before |
| `OriginRegex.ReplaceIsSplice` | server.js:123 | the output of the scan is the input with the expanded replacement spliced in at each replaced position and every other character copied |
| `OriginRegex.HitsCoverMatches` | server.js:123 | every match position lies inside some replaced match, so none is missed |
| `OriginRegex.ReplaceLength` | server.js:123 | for a replacement without `$`, the result's length is the input's plus, for each replaced match, the replacement's length minus the pattern's |
| `OriginRegex.LiteralOccurrenceMatches` | server.js:123 | a literal copy of the origin is matched by its pattern |
| `Text.StartsWith` | server.js:29 | definition: `s.startsWith(p)`, `s` begins with `p` |
| `Text.Includes` | server.js:47 | definition: `s.includes(p)`, `p` occurs at some index of `s`, the empty string everywhere |
| `Text.IncludesTransitive` | server.js:47 | `includes` is transitive |
| `GrokApi.HeaderIncludes` | server.js:49-50 | definition: `header?.includes(p)`, false for an absent header |
| `GrokApi.SomeIncluded` | server.js:47 | `some(... includes ...)` holds exactly when some endpoint of the list occurs in the path |
| `GrokApi.IsGrokApiRequest` | server.js:27-51 | a path not starting with `/v1` is never an API call; under `/v1`, a listed endpoint in the path makes it one; without an endpoint, only a JSON content type together with an event-stream accept makes it one |
| `GrokApi.EndpointListIsRedundant` | server.js:34-44 | `/chat/completions` and `/images/generations` never change the outcome: the seven other endpoints decide it alike |
| `Codec.CompressionOf` | server.js:140-141 | definition: the compression chosen by `content-encoding` in the order gzip, deflate, Brotli, none |
| `Codec.CompressionOfToken` | server.js:140-141 | a compression is selected exactly when `content-encoding` is the exact string of its token |
| `Http.Concat` | server.js:118 | definition: `Buffer.concat`, the chunks joined in arrival order |
| `Http.Lookup` | server.js:129 | definition: `headers[name]`, the first property with that name, or `undefined` |
| `Http.Assigned` | server.js:160 | definition: `headers[name] = v`, overwriting in place or appending |
| `Http.Deleted` | server.js:126 | definition: `delete headers[name]`, removing the property with that name |
| `Http.ConcatLength` | server.js:118 | `Buffer.concat` of the chunks is the concatenation of any prefix and the matching suffix |
| `Http.LookupIsName` | server.js:120 | a property reads as present exactly when its name is among the object's names |
| `Http.LookupAssigned` | server.js:160 | after `headers[n] = v`, `n` reads `v` and every other name reads as before |
| `Http.LookupDeleted` | server.js:126 | after `delete headers[n]`, `n` reads absent and every other name reads as before |
| `Http.NamesAssigned` | server.js:255 | assignment keeps an existing property in place and appends a new one |
| `Http.DeletedAbsent` | server.js:126 | deleting an absent property changes nothing |
| `Http.AssignedDistinct` | server.js:160 | an object stays an object, with distinct names, after assignment |
| `Http.DeletedDistinct` | server.js:126 | an object stays an object, with distinct names, after deletion |
| `HeaderObject.HeaderTable.constructor` | server.js:120 | the copied object holds exactly the backend's properties |
| `HeaderObject.HeaderTable.Get` | server.js:122 | definition: `headers[name]` on the mutable object, the lookup in its entries |
| `HeaderObject.HeaderTable.Set` | server.js:160 | the table becomes the assigned list; `name` reads `v` and every other name reads as before |
| `HeaderObject.HeaderTable.Delete` | server.js:126 | the table becomes the list without `name`; `name` reads absent and every other name reads as before |
| `ResponseBody.ContentTypeOf` | server.js:129 | definition: the `content-type` string, or the empty string when it is absent (Node.js stores it only as a string) |
| `ResponseBody.IsText` | server.js:130-134 | definition: the content type contains `text`, `json`, `xml`, `javascript` or `css` |
| `ResponseBody.EmittedHeaders` | server.js:120-126 | definition: the copied headers with `location` rewritten and `content-length` deleted |
| `ResponseBody.RewrittenText` | server.js:149-152 | definition: decode as UTF-8, replace the origin by the base URL, encode as UTF-8 (also server.js:173-175, 196-198, 213-215) |
| `ResponseBody.ModifiedResponse` | server.js:104-220 | definition: the reply for one backend response, by API test, text test, encoding and codec outcome |
| `ResponseBody.MissingContentTypeIsBinary` | server.js:129-135 | a response without `content-type` is treated as binary |
| `ResponseBody.EmittedHeadersLookup` | server.js:120-126 | the emitted headers have no `content-length`, carry the rewritten `location`, and carry every other backend property unchanged |
| `ResponseBody.ReplyUnlessApiRequest` | server.js:104-109 | nothing is written exactly when the request is an API call; any reply carries the backend's status and a byte body |
| `ResponseBody.HeadersOnlyLocationAndLengthChange` | server.js:120-219 | on every path, every header except `content-length` is the backend's, with `location` rewritten |
| `ResponseBody.ContentLengthIsExact` | server.js:126-216 | whenever a reply carries `content-length`, it equals the byte length of the body sent |
| `ResponseBody.BinaryPassesThrough` | server.js:135-138 | a non-text body is sent byte for byte, with the edited headers and no `content-length` |
| `ResponseBody.DecodeFailureSendsOriginal` | server.js:143-148 | when decompression fails, the original compressed bytes are sent without `content-length` |
| `ResponseBody.EncodeFailureSendsRewrittenPlain` | server.js:154-159 | when recompression fails, the rewritten text is sent uncompressed without `content-length`, while `content-encoding` still names the compression |
| `ResponseBody.CompressedSuccess` | server.js:149-162 | when both codec calls succeed, the recompressed rewritten text is sent with its exact length |
| `ResponseBody.UncompressedText` | server.js:211-218 | a text body with any other encoding is rewritten as plain text and sent with its exact length |
| `ResponseBody.TextWithoutOriginIsOnlyRecoded` | server.js:213-215 | plain text in which the origin occurs nowhere is only decoded and re-encoded |
| `ResponseBody.RewriteLocationIn` | server.js:122-124 | the header object becomes the backend's with `location` rewritten |
| `ResponseBody.ModifyResponseBody` | server.js:104-220 | the handler's reply, from chunk collection through the encoding branches, is exactly the specified reply |
| `WpLogin.IsPostpass` | server.js:238 | definition: the URL contains `action=postpass` |
| `WpLogin.RedirectTarget` | server.js:241 | definition: the Referer when present and non-empty, otherwise the base URL |
| `WpLogin.SkipSpaces` | server.js:248 | `\s*` ends at the longest run of JavaScript white space |
| `WpLogin.SkipValue` | server.js:248 | `[^;]` runs to the next `;` or the end |
| `WpLogin.DomainMatchEnd` | server.js:248 | a match ends after its start, inside the cookie |
| `WpLogin.FindDomain` | server.js:248 | the match found lies inside the cookie and does not start before the search does |
| `WpLogin.FindDomainFindsMatch` | server.js:248 | a match begins where the search stops |
| `WpLogin.FindDomainSkipsNoMatch` | server.js:248 | no match begins before where the search stops |
| `WpLogin.FindDomainMissesNoMatch` | server.js:248 | when the search finds nothing, no match begins anywhere |
| `WpLogin.MatchShape` | server.js:248 | every match contains `domain=` and ends at a `;` or at the end of the cookie |
| `WpLogin.StripDomain` | server.js:248 | definition: `cookie.replace(/;?\s*domain=[^;]+/i, '')`, cutting out the leftmost match |
| `WpLogin.StripDomainRemovesLeftmostMatch` | server.js:248 | the cookie changes exactly when a match occurs; then the leftmost match, and only it, is cut out and the cookie gets shorter |
| `WpLogin.FirstDomainTextCut` | server.js:248 | in `pre + "domain=1" + post`, with no match able to start in `pre`, exactly `domain=1` is cut, whatever `post` holds |
| `WpLogin.DomainTextCutInsideCookie` | server.js:248 | `a=xdomain=1; Domain=example.com` becomes `a=x; Domain=example.com`, so the value is cut and the `Domain` attribute stays; `mydomain=1; Path=/` becomes `my; Path=/`, so a cookie name ending in `domain` is cut |
| `WpLogin.NoDomainUnchanged` | server.js:248 | a cookie without `domain=` in any letter case is unchanged |
| `WpLogin.DomainAttributeRemoved` | server.js:248 | a `; Domain=value` attribute after a part without `domain=` is removed with its separator, and the rest is kept |
| `WpLogin.StripDomains` | server.js:248 | one rewritten cookie per backend cookie, in the same order |
| `WpLogin.CookiesOf` | server.js:242-246 | definition: an array as it is, a non-empty string as a one-element array, anything else as absent |
| `WpLogin.CookiesOfWellFormed` | server.js:242-246 | with Node's header object, the cookie list is exactly the `set-cookie` array, or absent when the header is absent |
| `WpLogin.RedirectPage` | server.js:258-263 | definition: the template page with the redirect URL in its meta refresh |
| `WpLogin.RefreshUrlOfPage` | server.js:258-263 | the page refreshes to the redirect URL when that URL holds no `"` |
| `WpLogin.WpLoginResponse` | server.js:237-278 | definition: the 302 redirect page for a password submission, otherwise the backend response with `location` rewritten |
| `WpLogin.PostpassRedirects` | server.js:238-263 | a password submission gets a 302 to the Referer, or to the base URL when the Referer is missing or empty, with `Content-Type: text/html` and a page that refreshes to the same URL whenever that URL holds no `"` |
| `WpLogin.PostpassCookies` | server.js:242-256 | the redirect carries `Set-Cookie` exactly when the backend sent cookies; then it carries one cookie per backend cookie, in order, each with its leftmost domain match removed |
| `WpLogin.OtherResponsesPassThrough` | server.js:264-276 | any other response keeps its status, its body byte for byte and its property names; only `location` changes |
| `WpLogin.OnProxyRes` | server.js:237-278 | the handler's reply is exactly the specified reply |
| `Routing.UnderMount` | server.js:55 | definition: the path starts with the mount path in any ASCII letter case and continues with `/` or ends (also server.js:229, 282) |
| `Routing.InLane` | server.js:55 | definition: the request as the `/v1` handler sees it, with the mount cut off its path |
| `Routing.ProxyReply` | server.js:229-291 | definition: the reply of the `/wp-login.php` handler or of the rewriting proxy |
| `Routing.MountRelative` | server.js:55 | inside a mounted handler the path starts with `/` and is a suffix of the full path after the mount |
| `Routing.RouteAsWritten` | server.js:55-59 | definition: the handler that answers when the lane tests the path with `/v1` cut off |
| `Routing.Route` | server.js:55-59 | definition: the handler that answers when the lane tests the full path |
| `Routing.LaneTakesOnlyRepeatedPrefix` | server.js:55-59 | as registered, the lane takes a request only when `/v1` appears a second time right after the mounted `/v1` |
| `Routing.ApiCallUnansweredAsWritten` | server.js:55-59 | as registered, an API call under `/v1`, found by its endpoint or by its headers, whose rest of path does not start with `/v1` or `//`, passes the lane, reaches the rewriting proxy, and gets no reply |
| `Routing.ChatCompletionsIsApiCall` | server.js:29-47 | `/v1/chat/completions` is an API call, and its path after `/v1` does not repeat `/v1` |
| `Routing.ChatCompletionsUnansweredAsWritten` | server.js:35 | `/v1/chat/completions` is such an unanswered API call |
| `Routing.PrefixOnlyIsApiCall` | server.js:29-47 | `/v1x/models` is an API call, since `/v1` is tested as a string prefix, yet it lies under neither the `/v1` nor the `/wp-login.php` mount |
| `Routing.PrefixOnlyCallUnansweredAsWritten` | server.js:55-59 | as registered, `/v1x/models` reaches the `/` proxy, which returns without a reply, while the corrected routing sends it to the lane |
| `Routing.EveryRequestAnswered` | server.js:282-291 | when the lane tests the full path, it takes exactly the API calls, and every other request gets a reply |
| `Routing.RouteExtendsRouteAsWritten` | server.js:57 | the corrected lane takes every request the registered lane took whose path starts with lower-case `/v1` |

## Left out

- Express and http-proxy-middleware are left out. This covers forwarding the request, the body
  parsers, `accept-encoding: identity`, `changeOrigin`, the `/v1` streaming lane's own proxy
  (its path rewrite, headers, logging and error handler), the local listener and the global
  error handler. The API lane is modelled only as the `ApiLane` handler, with no reply of its
  own.
- The logger, `LOG_LEVEL` and the stream `error` events are left out: they only write logs or
  end the response early.
- zlib and UTF-8 conversion are parameters (`Codec.Library`). So are their failures, and so is
  their callback order, since each handler writes exactly one reply. No property of the codecs
  themselves is assumed.
- The handlers take the origin as a parameter `target`, standing for `TargetUrl(env)` (server.js:19). `UrlRewrite.TargetUrlIsPlain` shows it is plain whenever the environment's value, when used, is plain.
- Origins holding a regular-expression metacharacter other than `.` (such as `[`, `+` or `?`)
  are excluded by the `PlainOrigin` precondition. For them the JavaScript pattern means
  something else, or is a syntax error.
- Strings are sequences of characters, while JavaScript's regular expressions without the `u`
  flag work on UTF-16 code units, where `.` matches one half of a surrogate pair. The model is
  exact only for texts without characters outside the Basic Multilingual Plane. With them the
  two differ both ways: for the origin `https://a.com` the model rewrites `https://a😀com` but
  JavaScript does not, and an origin `a..b` matches `a😀b` in JavaScript but not in the model.
- `UrlRewrite.RewriteSingleOrigin`: a Host header containing `$` is excluded, because its `$`
  patterns expand to other text. The general substitution `OriginRegex.ReplaceAll` does expand
  `$$`, `` $& ``, `` $` `` and `$'`, and `OriginRegex.ReplaceIsSplice` covers it.
- `UrlRewrite.DotMatchesAnyCharacter`: stated only for a Host header without `$`, for the same
  reason.
- `UrlRewrite.RewriteNotIdempotent`: stated only for a Host header without `$`, for the same
  reason.
- `OriginRegex.ReplaceSingle`: stated only for a replacement without `$`.
- `OriginRegex.ReplaceLength`: stated only for a replacement without `$`; with `$` patterns
  the inserted text's length depends on the match and its surroundings.
- `Routing.ProxyReply`: the `/wp-login.php` handler is given the full request. Inside its mount
  the path and URL lack the `/wp-login.php` prefix, but that prefix cannot hold any part of
  `action=postpass`, so the test gives the same answer.
- `Routing.UnderMount` folds only ASCII letter case when matching a mount path. Express's
  strict and case-sensitive routing options are left at their defaults.
- Number-valued headers never arrive from Node.js (`Http.WellFormed`). The proxy sets numbers
  only for `content-length`.
- Header objects are ordered lists. Node.js writes properties in insertion order, and the list
  keeps that order.

## Findings

| source | as written | input that shows it | evidently intended | confidence | as-written member | corrected member |
|---|---|---|---|---|---|---|
| server.js:55-59 | the API lane is mounted at `/v1`, so `req.path` inside it lacks `/v1`, and `isGrokApiRequest` rejects almost every API call; the `/` proxy then sees the full path, recognises the API call, and returns without writing a reply | a request for `/v1/chat/completions`; also `/v1x/models`, which no `/v1` mount would ever see | the `isGrokApiRequest` test runs before any mount, as an `app.use` with no path, so the lane takes every request the test accepts on the full path, `/v1x/models` included, and every other request is answered by one of the two proxies | not executed | `Routing.ApiCallUnansweredAsWritten` | `Routing.EveryRequestAnswered` |

=== FILE: codec.dfy ===
/** The codecs the response pipeline calls but does not implement: zlib's gunzip/gzip,
    inflate/deflate and Brotli, and Buffer's UTF-8 conversion. They are supplied as functions;
    the compressors may fail, the text conversions cannot. */
module Codec {
  import opened Wrappers
  import opened Http

  datatype Compression = Gzip | Deflate | Brotli

  datatype Library = Library(
    decompress: (Compression, Bytes) -> Option<Bytes>,
    compress: (Compression, Bytes) -> Option<Bytes>,
    decodeUtf8: Bytes -> string,
    encodeUtf8: string -> Bytes)

  /** The `content-encoding` token naming each compression. */
  function Token(c: Compression): string
  {
    match c
    case Gzip => "gzip"
    case Deflate => "deflate"
    case Brotli => "br"
  }

  /** `encoding === 'gzip'`, `=== 'deflate'`, `=== 'br'`: only these exact strings select a
      compression; any other value, or none, is handled as uncompressed. */
  function CompressionOf(encoding: Option<HeaderValue>): Option<Compression>
  {
    if encoding == Some(Str("gzip")) then Some(Gzip)
    else if encoding == Some(Str("deflate")) then Some(Deflate)
    else if encoding == Some(Str("br")) then Some(Brotli)
    else None
  }

  /** A compression is selected exactly by its own token. */
  lemma CompressionOfToken(encoding: Option<HeaderValue>, c: Compression)
    ensures CompressionOf(encoding) == Some(c) <==> encoding == Some(Str(Token(c)))
  {
  }
}

=== FILE: grok_api.dfy ===
/** `isGrokApiRequest`: the test that sends a request down the API fast lane instead of the
    rewriting proxy. */
module GrokApi {
  import opened Wrappers
  import opened Text
  import opened Http

  /** The endpoint fragments looked for in the path, in the order listed. */
  const ApiEndpoints: seq<string> := [
    "/chat/completions", "/completions", "/generations", "/models", "/images/generations",
    "/embeddings", "/assistants", "/threads", "/runs"]

  /** `endpoints.some(endpoint => path.includes(endpoint))` */
  function SomeIncluded(path: string, endpoints: seq<string>): (r: bool)
    ensures r <==> exists k :: 0 <= k < |endpoints| && Includes(path, endpoints[k])
  {
    if endpoints == [] then false
    else Includes(path, endpoints[0]) || SomeIncluded(path, endpoints[1..])
  }

  /** `header?.includes(p)`: an absent header counts as false */
  predicate HeaderIncludes(header: Option<string>, p: string)
  {
    header.Some? && Includes(header.value, p)
  }

  /** The path must start with `/v1`; then a known endpoint in the path, or a JSON request that
      accepts an event stream, makes it an API request. The contract states the three outcomes
      over the endpoint list itself. */
  predicate IsGrokApiRequest(req: Request)
    ensures !StartsWith(req.path, "/v1") ==> !IsGrokApiRequest(req)
    ensures StartsWith(req.path, "/v1") && (exists k :: 0 <= k < |ApiEndpoints| && Includes(req.path, ApiEndpoints[k]))
      ==> IsGrokApiRequest(req)
    ensures StartsWith(req.path, "/v1") && (forall k :: 0 <= k < |ApiEndpoints| ==> !Includes(req.path, ApiEndpoints[k]))
      ==> (IsGrokApiRequest(req) <==>
           HeaderIncludes(req.contentType, "application/json") && HeaderIncludes(req.accept, "text/event-stream"))
  {
    StartsWith(req.path, "/v1") &&
    (SomeIncluded(req.path, ApiEndpoints) ||
     (HeaderIncludes(req.contentType, "application/json") && HeaderIncludes(req.accept, "text/event-stream")))
  }

  /** Two entries of the list can never decide the outcome: `/chat/completions` contains
      `/completions` and `/images/generations` contains `/generations`. */
  const EssentialEndpoints: seq<string> := [
    "/completions", "/generations", "/models", "/embeddings", "/assistants", "/threads", "/runs"]

  /** A text holding `q` at its end holds `q`. */
  lemma IncludesEnd(pre: string, q: string)
    ensures Includes(pre + q, q)
  {
    assert OccursAt(pre + q, q, |pre|);
  }

  /** Whatever holds `pre + q` holds `q`. */
  lemma IncludesPart(path: string, pre: string, q: string)
    requires Includes(path, pre + q)
    ensures Includes(path, q)
  {
    IncludesEnd(pre, q);
    IncludesTransitive(path, pre + q, q);
  }

  lemma ListedEndpointImpliesEssential(path: string, k: nat)
    requires k < |ApiEndpoints| && Includes(path, ApiEndpoints[k])
    ensures SomeIncluded(path, EssentialEndpoints)
  {
    if k == 0 {
      assert ApiEndpoints[0] == "/chat" + EssentialEndpoints[0];
      IncludesPart(path, "/chat", EssentialEndpoints[0]);
    } else if k == 4 {
      assert ApiEndpoints[4] == "/images" + EssentialEndpoints[1];
      IncludesPart(path, "/images", EssentialEndpoints[1]);
    } else {
      var j := if k < 4 then k - 1 else k - 2;
      assert EssentialEndpoints[j] == ApiEndpoints[k];
    }
  }

  lemma EssentialEndpointIsListed(path: string, k: nat)
    requires k < |EssentialEndpoints| && Includes(path, EssentialEndpoints[k])
    ensures SomeIncluded(path, ApiEndpoints)
  {
    var j := if k < 3 then k + 1 else k + 2;
    assert ApiEndpoints[j] == EssentialEndpoints[k];
  }

  lemma EndpointListIsRedundant(path: string)
    ensures SomeIncluded(path, ApiEndpoints) <==> SomeIncluded(path, EssentialEndpoints)
  {
    if SomeIncluded(path, ApiEndpoints) {
      var k :| 0 <= k < |ApiEndpoints| && Includes(path, ApiEndpoints[k]);
      ListedEndpointImpliesEssential(path, k);
    }
    if SomeIncluded(path, EssentialEndpoints) {
      var k :| 0 <= k < |EssentialEndpoints| && Includes(path, EssentialEndpoints[k]);
      EssentialEndpointIsListed(path, k);
    }
  }
}

=== FILE: header_table.dfy ===
/** The mutable header object the handlers build with `Object.assign({}, proxyRes.headers)`
    or an object literal and then change property by property before `writeHead`. */
module HeaderObject {
  import opened Wrappers
  import opened Http

  class HeaderTable {
    var entries: HeaderList

    ghost predicate Valid()
      reads this
    {
      Distinct(entries)
    }

    /** A fresh object holding a copy of `init`'s properties. */
    constructor (init: HeaderList)
      requires Distinct(init)
      ensures Valid() && entries == init
    {
      entries := init;
    }

    /** `headers[name]` */
    function Get(name: string): Option<HeaderValue>
      reads this
    {
      Lookup(entries, name)
    }

    /** `headers[name] = v` */
    method Set(name: string, v: HeaderValue)
      requires Valid()
      modifies this
      ensures Valid() && entries == Assigned(old(entries), name, v)
      ensures Get(name) == Some(v)
      ensures forall m :: m != name ==> Get(m) == old(Get(m))
    {
      AssignedDistinct(entries, name, v);
      forall m {
        LookupAssigned(entries, name, v, m);
      }
      entries := Assigned(entries, name, v);
    }

    /** `delete headers[name]` */
    method Delete(name: string)
      requires Valid()
      modifies this
      ensures Valid() && entries == Deleted(old(entries), name)
      ensures Get(name) == None
      ensures forall m :: m != name ==> Get(m) == old(Get(m))
    {
      DeletedDistinct(entries, name);
      forall m {
        LookupDeleted(entries, name, m);
      }
      entries := Deleted(entries, name);
    }
  }
}

=== FILE: http.dfy ===
/** The HTTP values the proxy handles: requests as Express presents them, header objects,
    backend responses delivered as chunks, and the replies the proxy writes. */
module Http {
  import opened Wrappers

  type Bytes = seq<bv8>

  /** A header value as Node.js stores it in a header object: a string, a number the proxy
      assigned itself (`content-length`), or the array Node uses for `set-cookie`. */
  datatype HeaderValue = Str(s: string) | Num(n: nat) | Strs(items: seq<string>)

  /** A header object: its properties in insertion order, which is the order `writeHead` emits. */
  type HeaderList = seq<(string, HeaderValue)>

  /** The parts of the incoming request the proxy reads: `req.path` (no query), `req.url`
      (with query) and the `host`, `content-type`, `accept` and `referer` headers. */
  datatype Request = Request(
    path: string,
    url: string,
    host: Option<string>,
    contentType: Option<string>,
    accept: Option<string>,
    referer: Option<string>)

  /** The backend response: status, `proxyRes.headers` and the body as its `data` chunks. */
  datatype BackendResponse = BackendResponse(status: int, headers: HeaderList, chunks: seq<Bytes>)

  /** A body written with `res.end`: a Buffer, or a string that Node encodes as UTF-8. */
  datatype Payload = Raw(bytes: Bytes) | Html(text: string)

  /** What the client receives: nothing at all, or one `writeHead` followed by one `end`. */
  datatype Reply = NoReply | Emitted(status: int, headers: HeaderList, body: Payload)

  /** `Buffer.concat(chunks)` */
  function Concat(chunks: seq<Bytes>): Bytes
  {
    if chunks == [] then [] else Concat(chunks[..|chunks| - 1]) + chunks[|chunks| - 1]
  }

  /** Every byte received is in the concatenation, in order. */
  lemma {:induction false} ConcatLength(chunks: seq<Bytes>, k: nat)
    requires k <= |chunks|
    ensures |Concat(chunks[..k])| + |Concat(chunks[k..])| == |Concat(chunks)|
    ensures Concat(chunks) == Concat(chunks[..k]) + Concat(chunks[k..])
    decreases |chunks|
  {
    if k == |chunks| {
      assert chunks[k..] == [];
      assert chunks[..k] == chunks;
    } else {
      var init := chunks[..|chunks| - 1];
      ConcatLength(init, k);
      assert init[..k] == chunks[..k];
      assert init[k..] + [chunks[|chunks| - 1]] == chunks[k..];
      assert chunks[k..][..|chunks[k..]| - 1] == init[k..];
    }
  }

  /** The property names of a header object, in order. */
  function Names(h: HeaderList): seq<string>
  {
    if h == [] then [] else [h[0].0] + Names(h[1..])
  }

  /** A JavaScript object never holds the same property twice. */
  predicate Distinct(h: HeaderList)
  {
    forall i, j :: 0 <= i < j < |h| ==> h[i].0 != h[j].0
  }

  /** `headers[name]`, with `undefined` as `None` */
  function Lookup(h: HeaderList, name: string): Option<HeaderValue>
  {
    if h == [] then None
    else if h[0].0 == name then Some(h[0].1)
    else Lookup(h[1..], name)
  }

  /** `headers[name] = v`: an existing property keeps its place, a new one goes last. */
  function Assigned(h: HeaderList, name: string, v: HeaderValue): HeaderList
  {
    if h == [] then [(name, v)]
    else if h[0].0 == name then [(name, v)] + h[1..]
    else [h[0]] + Assigned(h[1..], name, v)
  }

  /** `delete headers[name]` */
  function Deleted(h: HeaderList, name: string): HeaderList
  {
    if h == [] then []
    else if h[0].0 == name then h[1..]
    else [h[0]] + Deleted(h[1..], name)
  }

  /** `proxyRes.headers` as Node.js builds it: names are distinct, no value is a number, and
      `set-cookie`, and only `set-cookie`, holds an array. */
  predicate WellFormed(h: HeaderList)
  {
    Distinct(h) &&
    forall k :: 0 <= k < |h| ==> !h[k].1.Num? && (h[k].1.Strs? <==> h[k].0 == "set-cookie")
  }

  lemma {:induction false} LookupIsName(h: HeaderList, name: string)
    ensures Lookup(h, name).Some? <==> name in Names(h)
  {
    if h != [] {
      LookupIsName(h[1..], name);
    }
  }

  /** After `headers[n] = v`, reading `n` gives `v` and every other property reads as before. */
  lemma {:induction false} LookupAssigned(h: HeaderList, n: string, v: HeaderValue, m: string)
    ensures Lookup(Assigned(h, n, v), m) == if m == n then Some(v) else Lookup(h, m)
  {
    if h != [] && h[0].0 != n {
      LookupAssigned(h[1..], n, v, m);
    }
  }

  /** After `delete headers[n]`, `n` is absent and every other property reads as before. */
  lemma {:induction false} LookupDeleted(h: HeaderList, n: string, m: string)
    requires Distinct(h)
    ensures Lookup(Deleted(h, n), m) == if m == n then None else Lookup(h, m)
  {
    if h != [] {
      if h[0].0 == n {
        if m == n {
          HeadNotInTail(h);
          LookupIsName(h[1..], n);
        }
      } else {
        LookupDeleted(h[1..], n, m);
      }
    }
  }

  lemma {:induction false} NotInNames(h: HeaderList, n: string)
    requires forall k :: 0 <= k < |h| ==> h[k].0 != n
    ensures n !in Names(h)
  {
    if h != [] {
      NotInNames(h[1..], n);
    }
  }

  lemma HeadNotInTail(h: HeaderList)
    requires Distinct(h) && h != []
    ensures h[0].0 !in Names(h[1..])
  {
    forall k | 0 <= k < |h| - 1
      ensures h[1..][k].0 != h[0].0
    {
      assert h[1..][k] == h[k + 1];
    }
    NotInNames(h[1..], h[0].0);
  }

  /** Assignment keeps the property order: an existing name stays in place, a new one is appended. */
  lemma {:induction false} NamesAssigned(h: HeaderList, n: string, v: HeaderValue)
    ensures Names(Assigned(h, n, v)) == if n in Names(h) then Names(h) else Names(h) + [n]
  {
    if h != [] && h[0].0 != n {
      NamesAssigned(h[1..], n, v);
    }
  }

  /** Deleting an absent property changes nothing. */
  lemma {:induction false} DeletedAbsent(h: HeaderList, n: string)
    requires Lookup(h, n) == None
    ensures Deleted(h, n) == h
  {
    if h != [] {
      DeletedAbsent(h[1..], n);
    }
  }

  lemma {:induction false} NameAt(h: HeaderList, k: nat)
    requires k < |h|
    ensures h[k].0 in Names(h)
  {
    if k > 0 {
      NameAt(h[1..], k - 1);
    }
  }

  /** Prepending a property whose name is new keeps names distinct. */
  lemma DistinctCons(x: (string, HeaderValue), t: HeaderList)
    requires Distinct(t) && x.0 !in Names(t)
    ensures Distinct([x] + t)
  {
    forall i, j | 0 <= i < j < |t| + 1
      ensures ([x] + t)[i].0 != ([x] + t)[j].0
    {
      if i == 0 {
        NameAt(t, j - 1);
      }
    }
  }

  /** A header object stays a header object under assignment. */
  lemma {:induction false} AssignedDistinct(h: HeaderList, n: string, v: HeaderValue)
    requires Distinct(h)
    ensures Distinct(Assigned(h, n, v))
  {
    if h != [] && h[0].0 != n {
      HeadNotInTail(h);
      AssignedDistinct(h[1..], n, v);
      NamesAssigned(h[1..], n, v);
      DistinctCons(h[0], Assigned(h[1..], n, v));
    }
  }

  /** ... and under deletion. */
  lemma {:induction false} DeletedDistinct(h: HeaderList, n: string)
    requires Distinct(h)
    ensures Distinct(Deleted(h, n))
  {
    if h != [] && h[0].0 != n {
      HeadNotInTail(h);
      DeletedDistinct(h[1..], n);
      LookupIsName(h[1..], h[0].0);
      LookupDeleted(h[1..], n, h[0].0);
      LookupIsName(Deleted(h[1..], n), h[0].0);
      DistinctCons(h[0], Deleted(h[1..], n));
    }
  }
}

=== FILE: origin_regex.dfy ===
/** `text.replace(new RegExp(origin, 'g'), replacement)` for an origin such as
    `https://targetUrl.com`: the origin is compiled as a regular expression, so each `.` in it
    matches any one character except a line terminator, and the replacement string is expanded
    as ECMAScript's GetSubstitution does (section 22.1.3.19.1 of ECMA-262). */
module OriginRegex {

  /** One element of a compiled origin: a literal character or the `.` wildcard. */
  datatype Atom = Exactly(c: char) | AnyChar

  type Pattern = seq<Atom>

  /** The characters `.` does not match (section 22.2.2.9 of ECMA-262, no `s` flag). */
  predicate IsLineTerminator(c: char)
  {
    c == '\n' || c == '\r' || c == '\U{2028}' || c == '\U{2029}'
  }

  /** ECMAScript's SyntaxCharacter: the characters with a meaning of their own in a pattern. */
  predicate IsSyntaxCharacter(c: char)
  {
    || c == '^' || c == '$' || c == '\\' || c == '.' || c == '*' || c == '+' || c == '?'
    || c == '(' || c == ')' || c == '[' || c == ']' || c == '{' || c == '}' || c == '|'
  }

  /** An origin whose only pattern metacharacter is `.`: every character stands for itself except
      `.`, which is a wildcard. The proxy's default origin and every origin made of a scheme, a
      host name and a port are of this kind. */
  predicate PlainOrigin(origin: string)
  {
    |origin| > 0 && forall k :: 0 <= k < |origin| ==> origin[k] == '.' || !IsSyntaxCharacter(origin[k])
  }

  /** `new RegExp(origin, 'g')` for a plain origin */
  function Compile(origin: string): (p: Pattern)
    ensures |p| == |origin|
  {
    seq(|origin|, k requires 0 <= k < |origin| => if origin[k] == '.' then AnyChar else Exactly(origin[k]))
  }

  predicate Admits(a: Atom, c: char)
  {
    match a
    case Exactly(d) => c == d
    case AnyChar => !IsLineTerminator(c)
  }

  /** The pattern matches the text beginning at index `i`. */
  predicate MatchesAt(p: Pattern, s: string, i: nat)
  {
    i + |p| <= |s| && AdmitsFrom(p, s, i, 0)
  }

  /** The atoms of `p` from the `k`-th on admit the characters of `s` from `i + k` on. */
  predicate AdmitsFrom(p: Pattern, s: string, i: nat, k: nat)
    requires i + |p| <= |s| && k <= |p|
    decreases |p| - k
  {
    k == |p| || (Admits(p[k], s[i + k]) && AdmitsFrom(p, s, i, k + 1))
  }

  lemma {:induction false} AdmitsFromEvery(p: Pattern, s: string, i: nat, k: nat)
    requires i + |p| <= |s| && k <= |p|
    ensures AdmitsFrom(p, s, i, k) <==> forall j :: k <= j < |p| ==> Admits(p[j], s[i + j])
    decreases |p| - k
  {
    if k < |p| {
      AdmitsFromEvery(p, s, i, k + 1);
    }
  }

  /** A match is a run of characters each admitted by the atom at its position. */
  lemma MatchesAtEvery(p: Pattern, s: string, i: nat)
    ensures MatchesAt(p, s, i) <==> i + |p| <= |s| && forall k :: 0 <= k < |p| ==> Admits(p[k], s[i + k])
  {
    if i + |p| <= |s| {
      AdmitsFromEvery(p, s, i, 0);
    }
  }

  /** The origin read as JavaScript reads it occurs in `s` at `i`: each `.` of the origin stands
      for one character other than a line terminator, every other character for itself. */
  predicate OriginAt(origin: string, s: string, i: nat)
  {
    i + |origin| <= |s| &&
    forall k :: 0 <= k < |origin| ==> if origin[k] == '.' then !IsLineTerminator(s[i + k]) else s[i + k] == origin[k]
  }

  /** The compiled origin matches at an index exactly when the origin occurs there in that
      sense. */
  lemma CompiledMatches(origin: string, s: string, i: nat)
    ensures MatchesAt(Compile(origin), s, i) <==> OriginAt(origin, s, i)
  {
    var p := Compile(origin);
    MatchesAtEvery(p, s, i);
    if i + |origin| <= |s| {
      forall k | 0 <= k < |origin|
        ensures Admits(p[k], s[i + k]) <==> if origin[k] == '.' then !IsLineTerminator(s[i + k]) else s[i + k] == origin[k]
      {
      }
    }
  }

  /** GetSubstitution for a pattern without capture groups: `$$` is `$`, `$&` the matched text,
      `` $` `` the text before the match, `$'` the text after it; every other `$` stands for itself. */
  function Expand(t: string, matched: string, before: string, after: string): string
  {
    if t == [] then []
    else if |t| >= 2 && t[0] == '$' && t[1] == '$' then "$" + Expand(t[2..], matched, before, after)
    else if |t| >= 2 && t[0] == '$' && t[1] == '&' then matched + Expand(t[2..], matched, before, after)
    else if |t| >= 2 && t[0] == '$' && t[1] == '`' then before + Expand(t[2..], matched, before, after)
    else if |t| >= 2 && t[0] == '$' && t[1] == '\'' then after + Expand(t[2..], matched, before, after)
    else [t[0]] + Expand(t[1..], matched, before, after)
  }

  /** The output of a global replace for the text from index `i` on: the scan takes the leftmost
      match at or after `i`, replaces it, and resumes after it. */
  function ReplaceFrom(p: Pattern, s: string, t: string, i: nat): string
    requires |p| > 0 && i <= |s|
    decreases |s| - i
  {
    if i == |s| then []
    else if MatchesAt(p, s, i) then Expand(t, s[i..i + |p|], s[..i], s[i + |p|..]) + ReplaceFrom(p, s, t, i + |p|)
    else [s[i]] + ReplaceFrom(p, s, t, i + 1)
  }

  /** `s.replace(p, t)` for a global pattern `p` */
  function ReplaceAll(p: Pattern, s: string, t: string): string
    requires |p| > 0
  {
    ReplaceFrom(p, s, t, 0)
  }

  /** The indices at which that scan replaces a match. */
  function HitsFrom(p: Pattern, s: string, i: nat): seq<nat>
    requires |p| > 0 && i <= |s|
    decreases |s| - i
  {
    if i == |s| then []
    else if MatchesAt(p, s, i) then [i] + HitsFrom(p, s, i + |p|)
    else HitsFrom(p, s, i + 1)
  }

  /** A replacement without `$` is inserted literally. */
  lemma {:induction false} ExpandPlain(t: string, matched: string, before: string, after: string)
    requires '$' !in t
    ensures Expand(t, matched, before, after) == t
  {
    if t != [] {
      assert t[0] != '$';
      assert '$' !in t[1..];
      ExpandPlain(t[1..], matched, before, after);
    }
  }

  /** One step of the scan where no match begins: the character is copied. */
  lemma ReplaceStepCopies(p: Pattern, s: string, t: string, i: nat)
    requires |p| > 0 && i < |s| && !MatchesAt(p, s, i)
    ensures ReplaceFrom(p, s, t, i) == [s[i]] + ReplaceFrom(p, s, t, i + 1)
    ensures HitsFrom(p, s, i) == HitsFrom(p, s, i + 1)
  {
  }

  /** One step of the scan where a match begins: the expanded replacement is emitted and the
      scan resumes after the match. */
  lemma ReplaceStepReplaces(p: Pattern, s: string, t: string, i: nat)
    requires |p| > 0 && i < |s| && MatchesAt(p, s, i)
    ensures ReplaceFrom(p, s, t, i) == Expand(t, s[i..i + |p|], s[..i], s[i + |p|..]) + ReplaceFrom(p, s, t, i + |p|)
    ensures HitsFrom(p, s, i) == [i] + HitsFrom(p, s, i + |p|)
  {
  }

  /** The scan copies text in which no match begins. */
  lemma {:induction false} ReplaceSkip(p: Pattern, s: string, t: string, i: nat, j: nat)
    requires |p| > 0 && i <= j <= |s|
    requires forall m :: i <= m < j ==> !MatchesAt(p, s, m)
    ensures ReplaceFrom(p, s, t, i) == s[i..j] + ReplaceFrom(p, s, t, j)
    decreases j - i
  {
    if i < j {
      ReplaceStepCopies(p, s, t, i);
      ReplaceSkip(p, s, t, i + 1, j);
      var tail := ReplaceFrom(p, s, t, j);
      assert ReplaceFrom(p, s, t, i) == [s[i]] + (s[i + 1..j] + tail);
      ConsAssociates(s[i], s[i + 1..j], tail);
      assert s[i..j] == [s[i]] + s[i + 1..j];
    }
  }

  lemma ConsAssociates(c: char, a: string, b: string)
    ensures [c] + (a + b) == ([c] + a) + b
  {
  }

  /** A text in which the pattern matches nowhere comes out unchanged. */
  lemma ReplaceWithoutMatch(p: Pattern, s: string, t: string)
    requires |p| > 0
    requires forall m :: 0 <= m < |s| ==> !MatchesAt(p, s, m)
    ensures ReplaceAll(p, s, t) == s
  {
    ReplaceSkip(p, s, t, 0, |s|);
    assert s[0..|s|] == s;
  }

  /** A single match, with none before or after it, is replaced by the replacement and the text
      around it is kept. */
  lemma ReplaceSingle(p: Pattern, a: string, m: string, b: string, t: string)
    requires |p| > 0 && |m| == |p| && '$' !in t
    requires MatchesAt(p, a + m + b, |a|)
    requires forall k :: 0 <= k < |a| ==> !MatchesAt(p, a + m + b, k)
    requires forall k :: |a| + |m| <= k < |a + m + b| ==> !MatchesAt(p, a + m + b, k)
    ensures ReplaceAll(p, a + m + b, t) == a + t + b
  {
    var s := a + m + b;
    var e := |a| + |m|;
    assert s[0..|a|] == a;
    assert s[e..|s|] == b;
    ReplaceSkip(p, s, t, e, |s|);
    var rest := ReplaceFrom(p, s, t, e);
    assert ReplaceFrom(p, s, t, |s|) == [];
    assert rest == b;
    ReplaceStepReplaces(p, s, t, |a|);
    ExpandPlain(t, s[|a|..e], s[..|a|], s[e..]);
    var mid := ReplaceFrom(p, s, t, |a|);
    assert mid == t + b;
    ReplaceSkip(p, s, t, 0, |a|);
    assert ReplaceFrom(p, s, t, 0) == a + (t + b);
  }

  /** Indices each at or after the end of the previous `n`-character stretch (the first at or
      after `i`), each leaving room for `n` characters before `len`. */
  predicate Spaced(hits: seq<nat>, n: nat, i: nat, len: nat)
    decreases |hits|
  {
    hits == [] || (i <= hits[0] && hits[0] + n <= len && Spaced(hits[1..], n, hits[0] + n, len))
  }

  /** A text that is one match as a whole becomes the replacement. */
  lemma ReplaceWholeMatch(p: Pattern, s: string, t: string)
    requires |p| > 0 && |s| == |p| && MatchesAt(p, s, 0) && '$' !in t
    ensures ReplaceAll(p, s, t) == t
  {
    assert [] + s + [] == s;
    ReplaceSingle(p, [], s, [], t);
    assert [] + t + [] == t;
  }

  /** Every replaced index is a match at or after the start, and the replaced matches are in
      increasing order and do not overlap. */
  lemma {:induction false} HitsAreMatches(p: Pattern, s: string, i: nat)
    requires |p| > 0 && i <= |s|
    ensures forall k :: 0 <= k < |HitsFrom(p, s, i)| ==> MatchesAt(p, s, HitsFrom(p, s, i)[k])
    ensures Spaced(HitsFrom(p, s, i), |p|, i, |s|)
    decreases |s| - i
  {
    if i < |s| {
      if MatchesAt(p, s, i) {
        var h := HitsFrom(p, s, i + |p|);
        assert HitsFrom(p, s, i) == [i] + h;
        HitsAreMatches(p, s, i + |p|);
      } else {
        assert HitsFrom(p, s, i) == HitsFrom(p, s, i + 1);
        HitsAreMatches(p, s, i + 1);
        SpacedLower(HitsFrom(p, s, i + 1), |p|, i, |s|);
      }
    }
  }

  /** The text from `i` on with the expanded replacement put in place of the `n` characters at
      each of the given indices: the result a global replace is meant to have once the indices
      of the replaced matches are known. */
  function Splice(s: string, t: string, n: nat, hits: seq<nat>, i: nat): string
    requires i <= |s| && Spaced(hits, n, i, |s|)
    decreases |hits|
  {
    if hits == [] then s[i..]
    else
      var h := hits[0];
      s[i..h] + (Expand(t, s[h..h + n], s[..h], s[h + n..]) + Splice(s, t, n, hits[1..], h + n))
  }

  /** Spacing from a later start holds from an earlier one. */
  lemma SpacedLower(hits: seq<nat>, n: nat, i: nat, len: nat)
    requires Spaced(hits, n, i + 1, len)
    ensures Spaced(hits, n, i, len)
  {
  }

  /** Splicing from a character before the first index copies that character. */
  lemma SpliceCopies(s: string, t: string, n: nat, hits: seq<nat>, i: nat)
    requires i < |s| && Spaced(hits, n, i + 1, |s|)
    ensures Spaced(hits, n, i, |s|) && Splice(s, t, n, hits, i) == [s[i]] + Splice(s, t, n, hits, i + 1)
  {
    SpacedLower(hits, n, i, |s|);
    if hits == [] {
      assert s[i..] == [s[i]] + s[i + 1..];
    } else {
      var h := hits[0];
      var w := Expand(t, s[h..h + n], s[..h], s[h + n..]) + Splice(s, t, n, hits[1..], h + n);
      var mid := s[i + 1..h];
      assert Splice(s, t, n, hits, i + 1) == mid + w;
      assert Splice(s, t, n, hits, i) == s[i..h] + w;
      assert s[i..h] == [s[i]] + mid;
      ConsAssociates(s[i], mid, w);
    }
  }

  /** Splicing from an index that is the first of the list emits the expanded replacement and
      goes on after the match. */
  lemma SpliceReplaces(s: string, t: string, n: nat, hits: seq<nat>, i: nat)
    requires i + n <= |s| && Spaced(hits, n, i + n, |s|)
    ensures Spaced([i] + hits, n, i, |s|)
    ensures Splice(s, t, n, [i] + hits, i) == Expand(t, s[i..i + n], s[..i], s[i + n..]) + Splice(s, t, n, hits, i + n)
  {
    assert ([i] + hits)[1..] == hits;
    var w := Expand(t, s[i..i + n], s[..i], s[i + n..]) + Splice(s, t, n, hits, i + n);
    assert Splice(s, t, n, [i] + hits, i) == s[i..i] + w;
    assert s[i..i] == [];
  }

  /** The scan's output from `i` agrees with the splice of its replaced indices. */
  predicate SplicedFrom(p: Pattern, s: string, t: string, i: nat)
    requires |p| > 0 && i <= |s|
  {
    Spaced(HitsFrom(p, s, i), |p|, i, |s|) && ReplaceFrom(p, s, t, i) == Splice(s, t, |p|, HitsFrom(p, s, i), i)
  }

  lemma SplicedAtMatch(p: Pattern, s: string, t: string, i: nat)
    requires |p| > 0 && i < |s| && MatchesAt(p, s, i) && SplicedFrom(p, s, t, i + |p|)
    ensures SplicedFrom(p, s, t, i)
  {
    ReplaceStepReplaces(p, s, t, i);
    var h := HitsFrom(p, s, i + |p|);
    var e := Expand(t, s[i..i + |p|], s[..i], s[i + |p|..]);
    var rest := ReplaceFrom(p, s, t, i + |p|);
    assert ReplaceFrom(p, s, t, i) == e + rest;
    SpliceReplaces(s, t, |p|, h, i);
    assert Splice(s, t, |p|, [i] + h, i) == e + rest;
  }

  lemma SplicedAtCopy(p: Pattern, s: string, t: string, i: nat)
    requires |p| > 0 && i < |s| && !MatchesAt(p, s, i) && SplicedFrom(p, s, t, i + 1)
    ensures SplicedFrom(p, s, t, i)
  {
    ReplaceStepCopies(p, s, t, i);
    var h := HitsFrom(p, s, i + 1);
    var rest := ReplaceFrom(p, s, t, i + 1);
    assert ReplaceFrom(p, s, t, i) == [s[i]] + rest;
    SpliceCopies(s, t, |p|, h, i);
    assert Splice(s, t, |p|, h, i) == [s[i]] + rest;
  }

  /** The scan's output is the text with the expanded replacement spliced in at each index the
      scan replaces, and copied everywhere else. */
  lemma {:induction false} ReplaceIsSplice(p: Pattern, s: string, t: string, i: nat)
    requires |p| > 0 && i <= |s|
    ensures Spaced(HitsFrom(p, s, i), |p|, i, |s|) && ReplaceFrom(p, s, t, i) == Splice(s, t, |p|, HitsFrom(p, s, i), i)
    decreases |s| - i
  {
    if i == |s| {
      assert HitsFrom(p, s, i) == [];
      assert ReplaceFrom(p, s, t, i) == [];
      assert Splice(s, t, |p|, [], i) == s[i..] == [];
    } else if MatchesAt(p, s, i) {
      ReplaceIsSplice(p, s, t, i + |p|);
      SplicedAtMatch(p, s, t, i);
    } else {
      ReplaceIsSplice(p, s, t, i + 1);
      SplicedAtCopy(p, s, t, i);
    }
  }

  /** Every occurrence is dealt with: each index at which the pattern matches is either replaced
      itself or lies inside a match replaced to its left. */
  lemma {:induction false} HitsCoverMatches(p: Pattern, s: string, i: nat, j: nat)
    requires |p| > 0 && i <= j < |s| && MatchesAt(p, s, j)
    ensures exists k :: 0 <= k < |HitsFrom(p, s, i)| && HitsFrom(p, s, i)[k] <= j < HitsFrom(p, s, i)[k] + |p|
    decreases |s| - i
  {
    var h := HitsFrom(p, s, i);
    if MatchesAt(p, s, i) {
      assert h == [i] + HitsFrom(p, s, i + |p|);
      if j < i + |p| {
        assert h[0] <= j < h[0] + |p|;
      } else {
        HitsCoverMatches(p, s, i + |p|, j);
        var h' := HitsFrom(p, s, i + |p|);
        var k' :| 0 <= k' < |h'| && h'[k'] <= j < h'[k'] + |p|;
        assert h[k' + 1] == h'[k'];
      }
    } else {
      assert h == HitsFrom(p, s, i + 1);
      HitsCoverMatches(p, s, i + 1, j);
    }
  }

  /** With a `$`-free replacement, the output is the input with every replaced match of length
      `|p|` exchanged for the replacement. */
  lemma {:induction false} ReplaceLength(p: Pattern, s: string, t: string, i: nat)
    requires |p| > 0 && i <= |s| && '$' !in t
    ensures |ReplaceFrom(p, s, t, i)| == |s| - i + |HitsFrom(p, s, i)| * (|t| - |p|)
    decreases |s| - i
  {
    if i < |s| {
      if MatchesAt(p, s, i) {
        ReplaceStepReplaces(p, s, t, i);
        ReplaceLength(p, s, t, i + |p|);
        ExpandPlain(t, s[i..i + |p|], s[..i], s[i + |p|..]);
        var n := |HitsFrom(p, s, i + |p|)|;
        var d := |t| - |p|;
        var rest := |ReplaceFrom(p, s, t, i + |p|)|;
        assert rest == |s| - (i + |p|) + n * d;
        assert |ReplaceFrom(p, s, t, i)| == |t| + rest;
        assert |HitsFrom(p, s, i)| == n + 1;
        MultiplySucc(n, d);
      } else {
        ReplaceStepCopies(p, s, t, i);
        ReplaceLength(p, s, t, i + 1);
      }
    }
  }

  lemma MultiplySucc(n: nat, d: int)
    ensures (n + 1) * d == n * d + d
  {
  }

  /** Every literal occurrence of a plain origin is a match of the compiled origin. */
  lemma LiteralOccurrenceMatches(origin: string, s: string, i: nat)
    requires PlainOrigin(origin) && i + |origin| <= |s| && s[i..i + |origin|] == origin
    ensures MatchesAt(Compile(origin), s, i)
  {
    var p := Compile(origin);
    forall k | 0 <= k < |p|
      ensures Admits(p[k], s[i + k])
    {
      assert s[i + k] == s[i..i + |origin|][k] == origin[k];
    }
    MatchesAtEvery(p, s, i);
  }
}

=== FILE: response_body.dfy ===
/** `modifyResponseBody`: the `onProxyRes` handler of the catch-all proxy. It buffers the backend
    body, rewrites `location`, drops `content-length`, passes binary bodies through, and for text
    decodes, rewrites the origin, re-encodes and recomputes `content-length`. */
module ResponseBody {
  import opened Wrappers
  import opened Text
  import opened Http
  import opened HeaderObject
  import opened OriginRegex
  import opened UrlRewrite
  import opened GrokApi
  import opened Codec

  /** The content-type test: text exactly when one of five markers occurs in it. */
  predicate IsText(contentType: string)
  {
    Includes(contentType, "text") || Includes(contentType, "json") || Includes(contentType, "xml") ||
    Includes(contentType, "javascript") || Includes(contentType, "css")
  }

  /** `headers['content-type'] || ''` */
  function ContentTypeOf(h: HeaderList): string
  {
    match Lookup(h, "content-type")
    case Some(Str(s)) => s
    case _ => ""
  }

  /** A response without a content-type is binary. */
  lemma MissingContentTypeIsBinary(h: HeaderList)
    requires Lookup(h, "content-type") == None
    ensures !IsText(ContentTypeOf(h))
  {
    assert ContentTypeOf(h) == "";
    forall p: string | p in ["text", "json", "xml", "javascript", "css"]
      ensures !Includes("", p)
    {
    }
  }

  /** The headers every emitted response starts from: `location` rewritten, `content-length` gone. */
  function EmittedHeaders(target: string, req: Request, h: HeaderList): HeaderList
    requires PlainOrigin(target)
  {
    Deleted(RewriteLocation(target, req.host, h), "content-length")
  }

  /** Decode the body as UTF-8, rewrite the origin, encode as UTF-8. */
  function RewrittenText(target: string, req: Request, lib: Library, plain: Bytes): Bytes
    requires PlainOrigin(target)
  {
    lib.encodeUtf8(RewriteOrigin(target, req.host, lib.decodeUtf8(plain)))
  }

  /** The reply the handler writes for one backend response. */
  function ModifiedResponse(target: string, req: Request, res: BackendResponse, lib: Library): Reply
    requires PlainOrigin(target)
  {
    if IsGrokApiRequest(req) then NoReply
    else
      var body := Concat(res.chunks);
      var h := EmittedHeaders(target, req, res.headers);
      if !IsText(ContentTypeOf(h)) then Emitted(res.status, h, Raw(body))
      else match CompressionOf(Lookup(h, "content-encoding"))
        case Some(c) =>
          (match lib.decompress(c, body)
           case None => Emitted(res.status, h, Raw(body))
           case Some(plain) =>
             var modified := RewrittenText(target, req, lib, plain);
             match lib.compress(c, modified)
             case None => Emitted(res.status, h, Raw(modified))
             case Some(packed) => Emitted(res.status, Assigned(h, "content-length", Num(|packed|)), Raw(packed)))
        case None =>
          var modified := RewrittenText(target, req, lib, body);
          Emitted(res.status, Assigned(h, "content-length", Num(|modified|)), Raw(modified))
  }

  /** The emitted headers differ from the backend's only in `location` (rewritten) and
      `content-length` (removed); the property order is kept. */
  lemma EmittedHeadersLookup(target: string, req: Request, h: HeaderList, m: string)
    requires PlainOrigin(target) && Distinct(h)
    ensures Distinct(EmittedHeaders(target, req, h))
    ensures Lookup(EmittedHeaders(target, req, h), m) ==
      if m == "content-length" then None
      else if m == "location" then
        (match Lookup(h, m)
         case Some(Str(l)) => Some(Str(RewriteOrigin(target, req.host, l)))
         case other => other)
      else Lookup(h, m)
  {
    RewriteLocationEffect(target, req.host, h, m);
    DeletedDistinct(RewriteLocation(target, req.host, h), "content-length");
    LookupDeleted(RewriteLocation(target, req.host, h), "content-length", m);
  }

  /** The fast-lane guard: nothing is written exactly for API requests. Every other request gets
      one reply with the backend's status. */
  lemma ReplyUnlessApiRequest(target: string, req: Request, res: BackendResponse, lib: Library)
    requires PlainOrigin(target)
    ensures ModifiedResponse(target, req, res, lib) == NoReply <==> IsGrokApiRequest(req)
    ensures ModifiedResponse(target, req, res, lib).Emitted? ==>
      ModifiedResponse(target, req, res, lib).status == res.status && ModifiedResponse(target, req, res, lib).body.Raw?
  {
  }

  /** Apart from `content-length`, every property of the emitted headers is the backend's, with
      `location` rewritten, on every path. */
  lemma HeadersOnlyLocationAndLengthChange(target: string, req: Request, res: BackendResponse, lib: Library, m: string)
    requires PlainOrigin(target) && Distinct(res.headers)
    requires ModifiedResponse(target, req, res, lib).Emitted? && m != "content-length"
    ensures Lookup(ModifiedResponse(target, req, res, lib).headers, m) ==
      if m == "location" then
        (match Lookup(res.headers, m)
         case Some(Str(l)) => Some(Str(RewriteOrigin(target, req.host, l)))
         case other => other)
      else Lookup(res.headers, m)
  {
    var h := EmittedHeaders(target, req, res.headers);
    EmittedHeadersLookup(target, req, res.headers, m);
    forall n: nat {
      LookupAssigned(h, "content-length", Num(n), m);
    }
  }

  /** Whenever the emitted headers carry `content-length`, it is the byte length of the emitted
      body: the backend's value is always removed and only the exact length is ever set. */
  lemma ContentLengthIsExact(target: string, req: Request, res: BackendResponse, lib: Library)
    requires PlainOrigin(target) && Distinct(res.headers)
    requires ModifiedResponse(target, req, res, lib).Emitted?
    requires Lookup(ModifiedResponse(target, req, res, lib).headers, "content-length").Some?
    ensures ModifiedResponse(target, req, res, lib).body.Raw?
    ensures Lookup(ModifiedResponse(target, req, res, lib).headers, "content-length")
      == Some(Num(|ModifiedResponse(target, req, res, lib).body.bytes|))
  {
    var h := EmittedHeaders(target, req, res.headers);
    EmittedHeadersLookup(target, req, res.headers, "content-length");
    forall n: nat {
      LookupAssigned(h, "content-length", Num(n), "content-length");
    }
  }

  /** A binary response is passed through: the body is the backend's bytes, unchanged, with no
      `content-length`. */
  lemma BinaryPassesThrough(target: string, req: Request, res: BackendResponse, lib: Library)
    requires PlainOrigin(target) && Distinct(res.headers)
    requires !IsGrokApiRequest(req) && !IsText(ContentTypeOf(res.headers))
    ensures ModifiedResponse(target, req, res, lib) ==
      Emitted(res.status, EmittedHeaders(target, req, res.headers), Raw(Concat(res.chunks)))
    ensures Lookup(ModifiedResponse(target, req, res, lib).headers, "content-length") == None
  {
    EmittedHeadersLookup(target, req, res.headers, "content-type");
    EmittedHeadersLookup(target, req, res.headers, "content-length");
  }

  /** For a gzip, deflate or br body that fails to decompress, the original compressed bytes go
      out unchanged, without `content-length`. */
  lemma DecodeFailureSendsOriginal(target: string, req: Request, res: BackendResponse, lib: Library, c: Compression)
    requires PlainOrigin(target) && Distinct(res.headers)
    requires !IsGrokApiRequest(req) && IsText(ContentTypeOf(res.headers))
    requires Lookup(res.headers, "content-encoding") == Some(Str(Token(c)))
    requires lib.decompress(c, Concat(res.chunks)) == None
    ensures ModifiedResponse(target, req, res, lib).Emitted?
    ensures ModifiedResponse(target, req, res, lib).body == Raw(Concat(res.chunks))
    ensures Lookup(ModifiedResponse(target, req, res, lib).headers, "content-length") == None
  {
    EmittedHeadersLookup(target, req, res.headers, "content-type");
    EmittedHeadersLookup(target, req, res.headers, "content-encoding");
    EmittedHeadersLookup(target, req, res.headers, "content-length");
    CompressionOfToken(Lookup(res.headers, "content-encoding"), c);
  }

  /** When recompression fails, the rewritten text goes out uncompressed, without
      `content-length`, while the `content-encoding` header still names the compression. */
  lemma EncodeFailureSendsRewrittenPlain(target: string, req: Request, res: BackendResponse, lib: Library, c: Compression, plain: Bytes)
    requires PlainOrigin(target) && Distinct(res.headers)
    requires !IsGrokApiRequest(req) && IsText(ContentTypeOf(res.headers))
    requires Lookup(res.headers, "content-encoding") == Some(Str(Token(c)))
    requires lib.decompress(c, Concat(res.chunks)) == Some(plain)
    requires lib.compress(c, RewrittenText(target, req, lib, plain)) == None
    ensures ModifiedResponse(target, req, res, lib).Emitted?
    ensures ModifiedResponse(target, req, res, lib).body == Raw(RewrittenText(target, req, lib, plain))
    ensures Lookup(ModifiedResponse(target, req, res, lib).headers, "content-length") == None
    ensures Lookup(ModifiedResponse(target, req, res, lib).headers, "content-encoding") == Some(Str(Token(c)))
  {
    EmittedHeadersLookup(target, req, res.headers, "content-type");
    EmittedHeadersLookup(target, req, res.headers, "content-encoding");
    EmittedHeadersLookup(target, req, res.headers, "content-length");
    CompressionOfToken(Lookup(res.headers, "content-encoding"), c);
  }

  /** When both codec calls succeed, the recompressed rewritten text goes out with its exact
      length. */
  lemma CompressedSuccess(target: string, req: Request, res: BackendResponse, lib: Library, c: Compression, plain: Bytes, packed: Bytes)
    requires PlainOrigin(target) && Distinct(res.headers)
    requires !IsGrokApiRequest(req) && IsText(ContentTypeOf(res.headers))
    requires Lookup(res.headers, "content-encoding") == Some(Str(Token(c)))
    requires lib.decompress(c, Concat(res.chunks)) == Some(plain)
    requires lib.compress(c, RewrittenText(target, req, lib, plain)) == Some(packed)
    ensures ModifiedResponse(target, req, res, lib).Emitted?
    ensures ModifiedResponse(target, req, res, lib).body == Raw(packed)
    ensures Lookup(ModifiedResponse(target, req, res, lib).headers, "content-length") == Some(Num(|packed|))
  {
    EmittedHeadersLookup(target, req, res.headers, "content-type");
    EmittedHeadersLookup(target, req, res.headers, "content-encoding");
    CompressionOfToken(Lookup(res.headers, "content-encoding"), c);
    LookupAssigned(EmittedHeaders(target, req, res.headers), "content-length", Num(|packed|), "content-length");
  }

  /** A text body whose encoding is anything but exactly gzip, deflate or br is rewritten as
      uncompressed text and sent with its exact length. */
  lemma UncompressedText(target: string, req: Request, res: BackendResponse, lib: Library)
    requires PlainOrigin(target) && Distinct(res.headers)
    requires !IsGrokApiRequest(req) && IsText(ContentTypeOf(res.headers))
    requires CompressionOf(Lookup(res.headers, "content-encoding")) == None
    ensures ModifiedResponse(target, req, res, lib).Emitted?
    ensures ModifiedResponse(target, req, res, lib).body == Raw(RewrittenText(target, req, lib, Concat(res.chunks)))
    ensures Lookup(ModifiedResponse(target, req, res, lib).headers, "content-length")
      == Some(Num(|RewrittenText(target, req, lib, Concat(res.chunks))|))
  {
    EmittedHeadersLookup(target, req, res.headers, "content-type");
    EmittedHeadersLookup(target, req, res.headers, "content-encoding");
    var modified := RewrittenText(target, req, lib, Concat(res.chunks));
    LookupAssigned(EmittedHeaders(target, req, res.headers), "content-length", Num(|modified|), "content-length");
  }

  /** Uncompressed text in which the origin matches nowhere is only decoded and re-encoded:
      the substitution leaves it as it is. */
  lemma TextWithoutOriginIsOnlyRecoded(target: string, req: Request, res: BackendResponse, lib: Library)
    requires PlainOrigin(target) && Distinct(res.headers)
    requires !IsGrokApiRequest(req) && IsText(ContentTypeOf(res.headers))
    requires CompressionOf(Lookup(res.headers, "content-encoding")) == None
    requires var text := lib.decodeUtf8(Concat(res.chunks));
      forall i :: 0 <= i < |text| ==> !OriginAt(target, text, i)
    ensures ModifiedResponse(target, req, res, lib).body == Raw(lib.encodeUtf8(lib.decodeUtf8(Concat(res.chunks))))
  {
    UncompressedText(target, req, res, lib);
    RewriteWithoutOriginIsIdentity(target, req.host, lib.decodeUtf8(Concat(res.chunks)));
  }

  /** `if (headers.location) headers.location = headers.location.replace(...)` on the header object */
  method RewriteLocationIn(headers: HeaderTable, target: string, host: Option<string>)
    requires headers.Valid() && PlainOrigin(target)
    modifies headers
    ensures headers.Valid() && headers.entries == RewriteLocation(target, host, old(headers.entries))
  {
    var location := headers.Get("location");
    if location.Some? && location.value.Str? && location.value.s != "" {
      headers.Set("location", Str(RewriteOrigin(target, host, location.value.s)));
    }
  }

  /** The handler itself: buffers the `data` chunks, copies and edits the header object, and
      chooses the body per content type and encoding. */
  method ModifyResponseBody(target: string, req: Request, res: BackendResponse, lib: Library) returns (reply: Reply)
    requires PlainOrigin(target) && WellFormed(res.headers)
    ensures reply == ModifiedResponse(target, req, res, lib)
  {
    if IsGrokApiRequest(req) {
      return NoReply;
    }
    var chunks: seq<Bytes> := [];
    for k := 0 to |res.chunks|
      invariant chunks == res.chunks[..k]
    {
      chunks := chunks + [res.chunks[k]];
    }
    assert chunks == res.chunks;
    var body := Concat(chunks);
    var headers := new HeaderTable(res.headers);
    RewriteLocationIn(headers, target, req.host);
    headers.Delete("content-length");
    var contentType := ContentTypeOf(headers.entries);
    if !IsText(contentType) {
      return Emitted(res.status, headers.entries, Raw(body));
    }
    var encoding := CompressionOf(headers.Get("content-encoding"));
    if encoding.Some? {
      var decoded := lib.decompress(encoding.value, body);
      if decoded.None? {
        return Emitted(res.status, headers.entries, Raw(body));
      }
      var text := lib.decodeUtf8(decoded.value);
      text := RewriteOrigin(target, req.host, text);
      var modified := lib.encodeUtf8(text);
      var compressed := lib.compress(encoding.value, modified);
      if compressed.None? {
        return Emitted(res.status, headers.entries, Raw(modified));
      }
      headers.Set("content-length", Num(|compressed.value|));
      return Emitted(res.status, headers.entries, Raw(compressed.value));
    } else {
      var text := lib.decodeUtf8(body);
      text := RewriteOrigin(target, req.host, text);
      var modified := lib.encodeUtf8(text);
      headers.Set("content-length", Num(|modified|));
      return Emitted(res.status, headers.entries, Raw(modified));
    }
  }
}

=== FILE: routing.dfy ===
/** Which of the three handlers answers a request. The handlers are registered in this order:
    the API lane mounted at `/v1`, the `/wp-login.php` proxy, and the rewriting proxy mounted
    at `/`; the first whose mount path matches, and that does not pass the request on, answers.

    A handler mounted at a path sees `req.path` with that path cut off the front. The API lane
    runs `isGrokApiRequest` on this shortened path, which then no longer starts with `/v1`, so
    the lane passes almost every API call on; the rewriting proxy, which sees the full path,
    recognises the call as an API call and sends nothing back. `RouteAsWritten` models the
    registration as it stands; `Route` is the dispatch the lane was meant to perform, and the
    lemmas below show that with it every request the lane does not take is answered. */
module Routing {
  import opened Text
  import opened Http
  import opened OriginRegex
  import opened Codec
  import opened GrokApi
  import opened ResponseBody
  import opened WpLogin

  /** A handler of the server. */
  datatype Handler = ApiLane | WordPressLogin | Rewriting

  /** A mount path, written in lower case, matches a request path that starts with it in any
      ASCII letter case and continues with `/` or ends there. */
  predicate UnderMount(path: string, mount: string)
  {
    && |mount| <= |path|
    && (forall k :: 0 <= k < |mount| ==> LowerAscii(path[k]) == mount[k])
    && (|mount| == |path| || path[|mount|] == '/')
  }

  /** `req.path` inside a handler mounted at `mount`: the matched prefix is cut off, and a `/`
      put in front when nothing is left. The mount pattern takes one `/` after the mount path
      with it when another `/` or the end follows. */
  function MountRelative(path: string, mount: string): (r: string)
    requires UnderMount(path, mount)
    ensures |r| > 0 && r[0] == '/'
    ensures r == "/" || (|r| <= |path| - |mount| && r == path[|path| - |r|..])
  {
    var n := |mount|;
    var rest := if n < |path| && (n + 1 == |path| || path[n + 1] == '/') then path[n + 1..] else path[n..];
    if rest == [] then "/" else rest
  }

  /** The request as the API lane sees it. */
  function InLane(req: Request): Request
    requires UnderMount(req.path, "/v1")
  {
    req.(path := MountRelative(req.path, "/v1"))
  }

  /** The handler that answers, with the lane testing the shortened path. */
  function RouteAsWritten(req: Request): Handler
  {
    if UnderMount(req.path, "/v1") && IsGrokApiRequest(InLane(req)) then ApiLane
    else if UnderMount(req.path, "/wp-login.php") then WordPressLogin
    else Rewriting
  }

  /** The handler that answers, with the lane testing the full path. The test has to run before
      any mount, as a handler registered with `app.use` and no path: a lane still mounted at
      `/v1` would never see a path such as `/v1x/models`, which the test accepts. */
  function Route(req: Request): Handler
  {
    if IsGrokApiRequest(req) then ApiLane
    else if UnderMount(req.path, "/wp-login.php") then WordPressLogin
    else Rewriting
  }

  /** The reply of the two proxy handlers; the API lane streams the backend's answer and is
      not modelled. */
  function ProxyReply(h: Handler, target: string, req: Request, res: BackendResponse, lib: Library): Reply
    requires h != ApiLane && PlainOrigin(target)
  {
    if h == WordPressLogin then WpLoginResponse(target, req, res) else ModifiedResponse(target, req, res, lib)
  }

  /** As registered, the lane takes a request only when `/v1` occurs a second time right after
      the mounted `/v1` (or after the slash that follows it), as in `/v1/v1/models`. */
  lemma LaneTakesOnlyRepeatedPrefix(req: Request)
    ensures RouteAsWritten(req) == ApiLane ==> OccursAt(req.path, "/v1", 3) || OccursAt(req.path, "/v1", 4)
  {
    if RouteAsWritten(req) == ApiLane {
      var r := MountRelative(req.path, "/v1");
      assert StartsWith(r, "/v1");
      assert r != "/";
      var i := |req.path| - |r|;
      assert r == req.path[i..];
      assert i == 3 || i == 4;
      assert req.path[i..i + 3] == r[..3];
    }
  }

  /** As registered, an API call to `/v1` followed by a path that neither starts with `/v1`
      nor with `//`, whether it is found by its endpoint or by its headers, passes the lane and
      reaches the rewriting proxy, which sends no reply. */
  lemma ApiCallUnansweredAsWritten(target: string, req: Request, res: BackendResponse, lib: Library, rest: string)
    requires PlainOrigin(target)
    requires req.path == "/v1" + rest && |rest| > 1 && rest[0] == '/' && rest[1] != '/' && !StartsWith(rest, "/v1")
    requires IsGrokApiRequest(req)
    ensures RouteAsWritten(req) == Rewriting
    ensures ProxyReply(RouteAsWritten(req), target, req, res, lib) == NoReply
  {
    var p := req.path;
    assert p[..3] == "/v1";
    assert p[3..] == rest;
    assert LowerAscii(p[1]) == 'v' && LowerAscii(p[2]) == '1';
    assert UnderMount(p, "/v1");
    assert MountRelative(p, "/v1") == rest;
    assert !IsGrokApiRequest(InLane(req));
    assert !UnderMount(p, "/wp-login.php") by {
      assert LowerAscii(p[1]) != "/wp-login.php"[1];
    }
    ReplyUnlessApiRequest(target, req, res, lib);
  }

  /** The chat endpoint itself is such a call. */
  lemma ChatCompletionsUnansweredAsWritten(target: string, req: Request, res: BackendResponse, lib: Library)
    requires PlainOrigin(target) && req.path == "/v1/chat/completions"
    ensures IsGrokApiRequest(req)
    ensures RouteAsWritten(req) == Rewriting && ProxyReply(RouteAsWritten(req), target, req, res, lib) == NoReply
  {
    ChatCompletionsIsApiCall(req);
    ApiCallUnansweredAsWritten(target, req, res, lib, "/chat/completions");
  }

  lemma ChatCompletionsIsApiCall(req: Request)
    requires req.path == "/v1/chat/completions"
    ensures IsGrokApiRequest(req)
    ensures req.path == "/v1" + "/chat/completions" && !StartsWith("/chat/completions", "/v1")
  {
    var rest := "/chat/completions";
    assert req.path == "/v1" + rest;
    assert OccursAt(req.path, ApiEndpoints[0], 3);
    assert StartsWith(req.path, "/v1");
    assert !StartsWith(rest, "/v1") by {
      assert rest[1] == 'c';
    }
  }

  /** A path that starts with `/v1` only as a string, such as `/v1x/models`, is an API call
      too; as registered no mount matches it but `/`, so it is not answered either. */
  lemma PrefixOnlyCallUnansweredAsWritten(target: string, req: Request, res: BackendResponse, lib: Library)
    requires PlainOrigin(target) && req.path == "/v1x" + "/models"
    ensures IsGrokApiRequest(req) && !UnderMount(req.path, "/v1")
    ensures RouteAsWritten(req) == Rewriting && ProxyReply(RouteAsWritten(req), target, req, res, lib) == NoReply
    ensures Route(req) == ApiLane
  {
    PrefixOnlyIsApiCall(req);
    ReplyUnlessApiRequest(target, req, res, lib);
  }

  lemma PrefixOnlyIsApiCall(req: Request)
    requires req.path == "/v1x" + "/models"
    ensures IsGrokApiRequest(req)
    ensures !UnderMount(req.path, "/v1") && !UnderMount(req.path, "/wp-login.php")
  {
    var p := req.path;
    assert OccursAt(p, ApiEndpoints[3], 4) by {
      assert p[4..11] == "/models";
    }
    assert StartsWith(p, "/v1") by {
      assert p[..3] == "/v1";
    }
    assert p[3] == 'x';
    assert LowerAscii(p[1]) != "/wp-login.php"[1];
  }

  /** With the lane testing the full path, it takes exactly the API calls, and every other
      request gets a reply from one of the two proxies. */
  lemma EveryRequestAnswered(target: string, req: Request, res: BackendResponse, lib: Library)
    requires PlainOrigin(target)
    ensures Route(req) == ApiLane <==> IsGrokApiRequest(req)
    ensures Route(req) != ApiLane ==> ProxyReply(Route(req), target, req, res, lib).Emitted?
    ensures Route(req) == Rewriting ==> ProxyReply(Route(req), target, req, res, lib) == ModifiedResponse(target, req, res, lib)
  {
    if Route(req) == Rewriting {
      ReplyUnlessApiRequest(target, req, res, lib);
    }
  }

  /** The correction keeps every request the lane took before whose path starts with `/v1`
      in lower case. */
  lemma RouteExtendsRouteAsWritten(req: Request)
    ensures RouteAsWritten(req) == ApiLane && StartsWith(req.path, "/v1") ==> Route(req) == ApiLane
  {
    if RouteAsWritten(req) == ApiLane && StartsWith(req.path, "/v1") {
      var r := MountRelative(req.path, "/v1");
      var i := |req.path| - |r|;
      assert r != "/" by {
        assert StartsWith(r, "/v1");
      }
      assert r == req.path[i..];
      assert OccursAt(req.path, r, i);
      if SomeIncluded(r, ApiEndpoints) {
        var k :| 0 <= k < |ApiEndpoints| && Includes(r, ApiEndpoints[k]);
        IncludesTransitive(req.path, r, ApiEndpoints[k]);
      }
    }
  }
}

=== FILE: text.dfy ===
/** The JavaScript string tests the proxy relies on: `startsWith` and `includes`. */
module Text {

  /** `s.startsWith(p)` */
  predicate StartsWith(s: string, p: string)
  {
    |p| <= |s| && s[..|p|] == p
  }

  /** `p` occurs in `s` beginning at index `i` */
  predicate OccursAt(s: string, p: string, i: nat)
  {
    i + |p| <= |s| && s[i..i + |p|] == p
  }

  /** `s.includes(p)`; the empty string is included in every string */
  predicate Includes(s: string, p: string)
  {
    exists i: nat | i <= |s| :: OccursAt(s, p, i)
  }

  /** Inclusion is transitive: a string that contains `q` contains everything `q` contains. */
  lemma IncludesTransitive(s: string, q: string, p: string)
    requires Includes(s, q) && Includes(q, p)
    ensures Includes(s, p)
  {
    var i: nat :| i <= |s| && OccursAt(s, q, i);
    var j: nat :| j <= |q| && OccursAt(q, p, j);
    assert s[i..i + |q|] == q;
    forall k | 0 <= k < |p|
      ensures s[i + j..i + j + |p|][k] == p[k]
    {
      assert s[i + j + k] == s[i..i + |q|][j + k] == q[j + k] == q[j..j + |p|][k];
    }
    assert OccursAt(s, p, i + j);
  }
}

=== FILE: url_rewrite.dfy ===
/** The proxy's URL substitution: the configured backend origin (`targetUrl`) is replaced,
    wherever the compiled origin matches, by the proxy base `https://<Host>`. */
module UrlRewrite {
  import opened Wrappers
  import opened Text
  import opened Http
  import opened OriginRegex

  const DefaultTarget: string := "https://targetUrl.com"

  /** `process.env.TARGET_URL || 'https://targetUrl.com'`: an unset or empty variable selects the
      default, so the origin is never empty and its pattern never matches the empty string. */
  function TargetUrl(env: Option<string>): (t: string)
    ensures |t| > 0
    ensures env.Some? && env.value != "" ==> t == env.value
    ensures !(env.Some? && env.value != "") ==> t == DefaultTarget
  {
    if env.Some? && env.value != "" then env.value else DefaultTarget
  }

  lemma DefaultTargetIsPlain()
    ensures PlainOrigin(DefaultTarget)
  {
  }

  /** The origin the handlers are given is plain whenever the environment's value, if one is
      used, is plain. */
  lemma TargetUrlIsPlain(env: Option<string>)
    requires env.Some? && env.value != "" ==> PlainOrigin(env.value)
    ensures PlainOrigin(TargetUrl(env))
  {
    DefaultTargetIsPlain();
  }

  /** `getNewBaseUrl(req)`: `https://` followed by the request's Host header, whatever scheme the
      backend origin uses; a request without a Host header gives the text `undefined`. */
  function BaseUrl(host: Option<string>): (b: string)
    ensures StartsWith(b, "https://")
    ensures host.Some? ==> b[|"https://"|..] == host.value
    ensures host.None? ==> b[|"https://"|..] == "undefined"
  {
    "https://" + if host.Some? then host.value else "undefined"
  }

  /** `text.replace(new RegExp(targetUrl, 'g'), getNewBaseUrl(req))` */
  function RewriteOrigin(target: string, host: Option<string>, text: string): string
    requires PlainOrigin(target)
  {
    ReplaceAll(Compile(target), text, BaseUrl(host))
  }

  /** A text in which the origin matches nowhere comes out unchanged. */
  lemma RewriteWithoutOriginIsIdentity(target: string, host: Option<string>, text: string)
    requires PlainOrigin(target)
    requires forall i :: 0 <= i < |text| ==> !OriginAt(target, text, i)
    ensures RewriteOrigin(target, host, text) == text
  {
    forall i | 0 <= i < |text|
      ensures !MatchesAt(Compile(target), text, i)
    {
      CompiledMatches(target, text, i);
    }
    ReplaceWithoutMatch(Compile(target), text, BaseUrl(host));
  }

  /** A text holding the origin once, literally, gets the proxy base in its place and keeps the
      text around it, provided the Host header holds no `$`. */
  lemma RewriteSingleOrigin(target: string, host: string, a: string, b: string)
    requires PlainOrigin(target) && '$' !in host
    requires forall i :: 0 <= i < |a| ==> !MatchesAt(Compile(target), a + target + b, i)
    requires forall i :: |a| + |target| <= i < |a + target + b| ==> !MatchesAt(Compile(target), a + target + b, i)
    ensures RewriteOrigin(target, Some(host), a + target + b) == a + "https://" + host + b
  {
    var s := a + target + b;
    assert s[|a|..|a| + |target|] == target;
    LiteralOccurrenceMatches(target, s, |a|);
    assert '$' !in BaseUrl(Some(host));
    ReplaceSingle(Compile(target), a, target, b, BaseUrl(Some(host)));
  }

  /** The `.` of the origin is a wildcard: a text that differs from the origin only by another
      character where the origin has a `.` is rewritten as if it were the origin. With the origin
      `https://blog.example.com` this takes `https://blog-example.com`, another host, for it. */
  lemma DotMatchesAnyCharacter(target: string, host: string, k: nat, c: char)
    requires PlainOrigin(target) && '$' !in host
    requires k < |target| && target[k] == '.' && !IsLineTerminator(c)
    ensures MatchesAt(Compile(target), target[k := c], 0)
    ensures RewriteOrigin(target, Some(host), target[k := c]) == "https://" + host
  {
    var s := target[k := c];
    var p := Compile(target);
    var t := BaseUrl(Some(host));
    DotSubstitutionMatches(target, k, c);
    assert '$' !in t;
    ReplaceWholeMatch(p, s, t);
  }

  lemma DotSubstitutionMatches(target: string, k: nat, c: char)
    requires k < |target| && target[k] == '.' && !IsLineTerminator(c)
    ensures MatchesAt(Compile(target), target[k := c], 0)
  {
    var s := target[k := c];
    assert OriginAt(target, s, 0);
    CompiledMatches(target, s, 0);
  }

  /** Rewriting is not idempotent: when the proxy base followed by the text after an occurrence
      spells the origin again, a second pass rewrites that too. With the origin `https://site.com`
      and the Host `site`, the text `https://site.com.com` becomes `https://site.com` and then
      `https://site`. */
  lemma RewriteNotIdempotent(target: string, host: string, b: string)
    requires PlainOrigin(target) && '$' !in host && b != []
    requires target == "https://" + host + b
    ensures RewriteOrigin(target, Some(host), target + b) == target
    ensures RewriteOrigin(target, Some(host), RewriteOrigin(target, Some(host), target + b)) != RewriteOrigin(target, Some(host), target + b)
  {
    RewriteSingleOrigin(target, host, "", b);
    assert "" + target + b == target + b;
    RewriteSingleOrigin(target, host, "", "");
    assert "" + target + "" == target;
    assert "" + "https://" + host + "" != target;
  }

  /** `if (headers.location) headers.location = <rewritten>`: a non-empty string `location` is
      rewritten in place; nothing else in the header object changes. */
  function RewriteLocation(target: string, host: Option<string>, h: HeaderList): HeaderList
    requires PlainOrigin(target)
  {
    match Lookup(h, "location")
    case Some(Str(l)) => if l != "" then Assigned(h, "location", Str(RewriteOrigin(target, host, l))) else h
    case _ => h
  }

  /** The rewritten object has the same properties in the same order; `location` holds the
      rewritten URL and every other property its old value. */
  lemma RewriteLocationEffect(target: string, host: Option<string>, h: HeaderList, m: string)
    requires PlainOrigin(target) && Distinct(h)
    ensures Distinct(RewriteLocation(target, host, h))
    ensures Names(RewriteLocation(target, host, h)) == Names(h)
    ensures Lookup(RewriteLocation(target, host, h), m) ==
      if m != "location" then Lookup(h, m)
      else match Lookup(h, m)
        case Some(Str(l)) => Some(Str(RewriteOrigin(target, host, l)))
        case other => other
  {
    match Lookup(h, "location")
    case Some(Str(l)) =>
      if l != "" {
        var v := Str(RewriteOrigin(target, host, l));
        AssignedDistinct(h, "location", v);
        LookupIsName(h, "location");
        NamesAssigned(h, "location", v);
        LookupAssigned(h, "location", v, m);
      }
    case _ =>
  }
}

=== FILE: wp_login.dfy ===
/** The `onProxyRes` handler of the `/wp-login.php` proxy. A password submission
    (`action=postpass`) is answered with a synthetic redirect back to the page it came from,
    carrying the backend's cookies without their `domain` attribute; any other response is
    passed through with only `location` rewritten. */
module WpLogin {
  import opened Wrappers
  import opened Text
  import opened Http
  import opened HeaderObject
  import opened OriginRegex
  import opened UrlRewrite
  import opened ResponseBody

  /** `req.url.includes('action=postpass')` */
  predicate IsPostpass(url: string)
  {
    Includes(url, "action=postpass")
  }

  /** `req.headers.referer || getNewBaseUrl(req)` */
  function RedirectTarget(req: Request): string
  {
    if req.referer.Some? && req.referer.value != "" then req.referer.value else BaseUrl(req.host)
  }

  // The cookie rewrite `cookie.replace(/;?\s*domain=[^;]+/i, '')`: the leftmost match of an
  // optional `;`, any white space, `domain=` in any letter case, and a non-empty run of
  // characters other than `;`, is deleted.

  /** ECMAScript's `\s`: white space and line terminators (section 22.2.2.9 of ECMA-262). */
  predicate IsRegexSpace(c: char)
  {
    || c == '\t' || c == '\n' || c == '\U{B}' || c == '\U{C}' || c == '\r' || c == ' '
    || c == '\U{A0}' || c == '\U{1680}' || ('\U{2000}' <= c <= '\U{200A}') || c == '\U{2028}'
    || c == '\U{2029}' || c == '\U{202F}' || c == '\U{205F}' || c == '\U{3000}' || c == '\U{FEFF}'
  }

  /** The case folding of a pattern with the `i` flag, for the letters of `domain=`: only ASCII
      letters fold onto them. */
  function LowerAscii(c: char): char
  {
    if 'A' <= c <= 'Z' then (c as int + 32) as char else c
  }

  /** `domain=`, in any letter case, occurs at index `i`. */
  predicate KeywordAt(s: string, i: nat)
  {
    && i + 7 <= |s|
    && LowerAscii(s[i]) == 'd' && LowerAscii(s[i + 1]) == 'o' && LowerAscii(s[i + 2]) == 'm'
    && LowerAscii(s[i + 3]) == 'a' && LowerAscii(s[i + 4]) == 'i' && LowerAscii(s[i + 5]) == 'n'
    && s[i + 6] == '='
  }

  /** The end of the longest run of white space from `j` (`\s*`). */
  function SkipSpaces(s: string, j: nat): (e: nat)
    requires j <= |s|
    ensures j <= e <= |s|
    ensures forall k :: j <= k < e ==> IsRegexSpace(s[k])
    ensures e < |s| ==> !IsRegexSpace(s[e])
    decreases |s| - j
  {
    if j < |s| && IsRegexSpace(s[j]) then SkipSpaces(s, j + 1) else j
  }

  /** The end of the longest run of characters other than `;` from `j` (`[^;]+` without its
      lower bound). */
  function SkipValue(s: string, j: nat): (e: nat)
    requires j <= |s|
    ensures j <= e <= |s|
    ensures forall k :: j <= k < e ==> s[k] != ';'
    ensures e < |s| ==> s[e] == ';'
    decreases |s| - j
  {
    if j < |s| && s[j] != ';' then SkipValue(s, j + 1) else j
  }

  /** Where a match that begins at index `i` ends, if one begins there. A `;` at `i` must be the
      pattern's optional `;`, since neither `\s` nor `d` matches it. */
  function DomainMatchEnd(s: string, i: nat): (r: Option<nat>)
    requires i <= |s|
    ensures r.Some? ==> i < r.value <= |s|
  {
    var j := if i < |s| && s[i] == ';' then i + 1 else i;
    var k := SkipSpaces(s, j);
    if !KeywordAt(s, k) then None
    else
      var e := SkipValue(s, k + 7);
      if e == k + 7 then None else Some(e)
  }

  /** The leftmost match at or after index `i`: its start and end. */
  function FindDomain(s: string, i: nat): (r: Option<(nat, nat)>)
    requires i <= |s|
    ensures r.Some? ==> i <= r.value.0 < r.value.1 <= |s|
    decreases |s| - i
  {
    if i == |s| then None
    else if DomainMatchEnd(s, i).Some? then Some((i, DomainMatchEnd(s, i).value))
    else FindDomain(s, i + 1)
  }

  /** Where the search stops, a match begins, and it ends where the search says. */
  lemma {:induction false} FindDomainFindsMatch(s: string, i: nat)
    requires i <= |s|
    ensures FindDomain(s, i).Some? ==> DomainMatchEnd(s, FindDomain(s, i).value.0) == Some(FindDomain(s, i).value.1)
    decreases |s| - i
  {
    if i < |s| && DomainMatchEnd(s, i).None? {
      FindDomainFindsMatch(s, i + 1);
    }
  }

  /** No match begins between the start of the search and where it stops. */
  lemma {:induction false} FindDomainSkipsNoMatch(s: string, i: nat)
    requires i <= |s|
    ensures FindDomain(s, i).Some? ==> forall a :: i <= a < FindDomain(s, i).value.0 ==> DomainMatchEnd(s, a) == None
    decreases |s| - i
  {
    if i < |s| && DomainMatchEnd(s, i).None? {
      FindDomainSkipsNoMatch(s, i + 1);
    }
  }

  /** When the search finds nothing, no match begins anywhere from its start. */
  lemma {:induction false} FindDomainMissesNoMatch(s: string, i: nat)
    requires i <= |s|
    ensures FindDomain(s, i).None? ==> forall a :: i <= a <= |s| ==> DomainMatchEnd(s, a) == None
    decreases |s| - i
  {
    if i == |s| {
      assert SkipSpaces(s, i) == i;
      assert DomainMatchEnd(s, i) == None;
    } else if DomainMatchEnd(s, i).None? {
      FindDomainMissesNoMatch(s, i + 1);
    }
  }

  /** `cookie.replace(/;?\s*domain=[^;]+/i, '')` */
  function StripDomain(cookie: string): string
  {
    match FindDomain(cookie, 0)
    case Some((a, e)) => cookie[..a] + cookie[e..]
    case None => cookie
  }

  /** Every match holds `domain=` and runs to the next `;` or the end of the cookie. */
  lemma MatchShape(s: string, a: nat)
    requires a <= |s| && DomainMatchEnd(s, a).Some?
    ensures var e := DomainMatchEnd(s, a).value;
      && (exists k :: a <= k && k + 7 < e && KeywordAt(s, k))
      && (e == |s| || s[e] == ';')
  {
    var j := if a < |s| && s[a] == ';' then a + 1 else a;
    var k := SkipSpaces(s, j);
    assert KeywordAt(s, k);
  }

  /** A cookie is changed exactly when a match occurs in it; then the leftmost match, and only
      it, is cut out. */
  lemma StripDomainRemovesLeftmostMatch(cookie: string)
    ensures FindDomain(cookie, 0).None? ==> StripDomain(cookie) == cookie
    ensures FindDomain(cookie, 0).Some? ==>
      var (a, e) := FindDomain(cookie, 0).value;
      && a < e
      && StripDomain(cookie) == cookie[..a] + cookie[e..]
      && |StripDomain(cookie)| < |cookie|
      && DomainMatchEnd(cookie, a) == Some(e)
      && (forall b :: 0 <= b < a ==> DomainMatchEnd(cookie, b) == None)
    ensures FindDomain(cookie, 0).None? ==> forall b :: 0 <= b <= |cookie| ==> DomainMatchEnd(cookie, b) == None
  {
    FindDomainFindsMatch(cookie, 0);
    FindDomainSkipsNoMatch(cookie, 0);
    FindDomainMissesNoMatch(cookie, 0);
  }

  /** A cookie with no `domain=` in it, in any letter case, is unchanged. */
  lemma NoDomainUnchanged(cookie: string)
    requires forall k :: 0 <= k <= |cookie| ==> !KeywordAt(cookie, k)
    ensures StripDomain(cookie) == cookie
  {
    FindDomainFindsMatch(cookie, 0);
    if FindDomain(cookie, 0).Some? {
      MatchShape(cookie, FindDomain(cookie, 0).value.0);
      assert false;
    }
  }

  /** A search from `i` stops at the first index where a match begins. */
  lemma {:induction false} FindDomainStopsAt(s: string, i: nat, a: nat)
    requires i <= a <= |s| && DomainMatchEnd(s, a).Some?
    requires forall b :: i <= b < a ==> DomainMatchEnd(s, b) == None
    ensures FindDomain(s, i) == Some((a, DomainMatchEnd(s, a).value))
    decreases a - i
  {
    if i < a {
      FindDomainStopsAt(s, i + 1, a);
    }
  }

  /** No match begins before a `;` when no `domain=` occurs before it. */
  lemma NoMatchBeforeSeparator(s: string, a: nat, b: nat)
    requires b < a < |s| && s[a] == ';'
    requires forall k :: 0 <= k < a ==> !KeywordAt(s, k)
    ensures DomainMatchEnd(s, b) == None
  {
    var j := if s[b] == ';' then b + 1 else b;
    var k := SkipSpaces(s, j);
    assert !IsRegexSpace(s[a]);
  }

  /** A match at a `;` followed by one space and `domain=` runs to the next `;` or the end. */
  lemma MatchAtSeparator(s: string, a: nat, e: nat)
    requires a + 9 < e <= |s| && s[a] == ';' && s[a + 1] == ' ' && KeywordAt(s, a + 2)
    requires forall x :: a + 9 <= x < e ==> s[x] != ';'
    requires e == |s| || s[e] == ';'
    ensures DomainMatchEnd(s, a) == Some(e)
  {
    assert IsRegexSpace(s[a + 1]) && !IsRegexSpace(s[a + 2]);
    assert SkipSpaces(s, a + 1) == a + 2;
    assert SkipValue(s, a + 9) == e;
  }

  /** A `; Domain=<value>` attribute (any letter case) that follows a part without `domain=`
      and precedes the next `;` or the end is removed with its separator; the rest is kept. */
  lemma DomainAttributeRemoved(pre: string, kw: string, v: string, post: string)
    requires |kw| == 7 && forall k :: 0 <= k < 7 ==> LowerAscii(kw[k]) == "domain="[k]
    requires v != [] && ';' !in v && (post == [] || post[0] == ';')
    requires forall k :: 0 <= k < |pre| ==> !KeywordAt(pre + "; " + kw + v + post, k)
    ensures StripDomain(pre + "; " + kw + v + post) == pre + post
  {
    var s := pre + "; " + kw + v + post;
    var a := |pre|;
    var e := a + 9 + |v|;
    assert s[a] == ';' && s[a + 1] == ' ';
    assert s[a + 2..a + 9] == kw;
    forall k | 0 <= k < 7
      ensures LowerAscii(s[a + 2 + k]) == "domain="[k]
    {
      assert s[a + 2 + k] == kw[k];
    }
    assert KeywordAt(s, a + 2);
    forall x | a + 9 <= x < e
      ensures s[x] != ';'
    {
      assert s[x] == v[x - a - 9];
    }
    assert e == |s| || s[e] == ';' by {
      if e < |s| {
        assert s[e] == post[0];
      }
    }
    MatchAtSeparator(s, a, e);
    forall b | 0 <= b < a
      ensures DomainMatchEnd(s, b) == None
    {
      NoMatchBeforeSeparator(s, a, b);
    }
    FindDomainStopsAt(s, 0, a);
    assert s[..a] == pre;
    assert s[e..] == post;
  }

  /** The leftmost match may lie inside a cookie's value, and then that text is cut while the
      real `Domain` attribute after it stays; it may also lie inside a cookie's name. */
  lemma DomainTextCutInsideCookie()
    ensures StripDomain("a=x" + "domain=1" + "; Domain=example.com") == "a=x" + "; Domain=example.com"
    ensures StripDomain("my" + "domain=1" + "; Path=/") == "my" + "; Path=/"
  {
    FirstDomainTextCut("a=x", "; Domain=example.com");
    FirstDomainTextCut("my", "; Path=/");
  }

  /** A cookie `pre + "domain=1" + post`, where no character of `pre` can start a match and
      `post` begins a new attribute, loses exactly `domain=1`, whether or not `post` holds a
      `Domain` attribute of its own. */
  lemma FirstDomainTextCut(pre: string, post: string)
    requires |post| > 0 && post[0] == ';'
    requires forall k :: 0 <= k < |pre| ==> !IsRegexSpace(pre[k]) && pre[k] != ';' && LowerAscii(pre[k]) != 'd'
    ensures StripDomain(pre + "domain=1" + post) == pre + post
  {
    var mid := "domain=1";
    var s := pre + mid + post;
    var a := |pre|;
    assert s[a..a + 8] == mid;
    assert s[a + 8] == ';';
    assert DomainMatchEnd(s, a) == Some(a + 8) by {
      assert SkipSpaces(s, a) == a;
      assert KeywordAt(s, a);
      assert SkipValue(s, a + 8) == a + 8;
      assert SkipValue(s, a + 7) == a + 8;
    }
    forall b | 0 <= b < a
      ensures DomainMatchEnd(s, b) == None
    {
      assert s[b] == pre[b];
      assert SkipSpaces(s, b) == b;
    }
    FindDomainStopsAt(s, 0, a);
    assert s[..a] == pre;
    assert s[a + 8..] == post;
  }

  /** `setCookie.map(...)`: one rewritten cookie per backend cookie, in the same order. */
  function StripDomains(cookies: seq<string>): (r: seq<string>)
    ensures |r| == |cookies|
    ensures forall k :: 0 <= k < |cookies| ==> r[k] == StripDomain(cookies[k])
  {
    if cookies == [] then [] else [StripDomain(cookies[0])] + StripDomains(cookies[1..])
  }

  /** `let setCookie = proxyRes.headers['set-cookie']; if (setCookie) { if (!Array.isArray(setCookie))
      setCookie = [setCookie]; ... }`: the cookies as a list, or none when the header is absent or
      empty. Node.js never stores a number here. */
  function CookiesOf(v: Option<HeaderValue>): Option<seq<string>>
  {
    match v
    case None => None
    case Some(Strs(items)) => Some(items)
    case Some(Str(s)) => if s == "" then None else Some([s])
    case Some(Num(_)) => None
  }

  /** Node.js always stores `set-cookie` as an array, so the cookies are exactly its items. */
  lemma CookiesOfWellFormed(h: HeaderList)
    requires WellFormed(h)
    ensures Lookup(h, "set-cookie").Some? ==>
      Lookup(h, "set-cookie").value.Strs? && CookiesOf(Lookup(h, "set-cookie")) == Some(Lookup(h, "set-cookie").value.items)
    ensures Lookup(h, "set-cookie").None? ==> CookiesOf(Lookup(h, "set-cookie")) == None
  {
    if Lookup(h, "set-cookie").Some? {
      var k := LookupIndex(h, "set-cookie");
    }
  }

  lemma {:induction false} LookupIndex(h: HeaderList, n: string) returns (k: nat)
    requires Lookup(h, n).Some?
    ensures k < |h| && h[k] == (n, Lookup(h, n).value)
  {
    if h[0].0 == n {
      k := 0;
    } else {
      var k' := LookupIndex(h[1..], n);
      k := k' + 1;
    }
  }

  // The page sent with the redirect, for clients that ignore the 302.

  const PageHead: string := "<html>\n  <head>\n    <meta http-equiv=\"refresh\" content=\"0;url="
  const Notice: string := "\U{9A8C}\U{8BC1}\U{6210}\U{529F}\U{FF0C}\U{6B63}\U{5728}\U{91CD}\U{5B9A}\U{5411}..."
  const PageTail: string := "\">\n  </head>\n  <body>" + Notice + "</body>\n</html>"

  function RedirectPage(url: string): string
  {
    PageHead + url + PageTail
  }

  function UpToQuote(s: string): (r: string)
  {
    if s == [] || s[0] == '"' then [] else [s[0]] + UpToQuote(s[1..])
  }

  /** The URL a browser reads from the page's `<meta http-equiv="refresh">`: what follows
      `url=` up to the closing quote of the `content` attribute. */
  function RefreshUrl(page: string): Option<string>
  {
    if StartsWith(page, PageHead) then Some(UpToQuote(page[|PageHead|..])) else None
  }

  lemma {:induction false} UpToQuoteStops(u: string, rest: string)
    requires '"' !in u && rest != [] && rest[0] == '"'
    ensures UpToQuote(u + rest) == u
  {
    if u == [] {
      assert u + rest == rest;
    } else {
      assert (u + rest)[1..] == u[1..] + rest;
      UpToQuoteStops(u[1..], rest);
    }
  }

  lemma SplitAfterPrefix(a: string, b: string)
    ensures StartsWith(a + b, a) && (a + b)[|a|..] == b
  {
    assert (a + b)[..|a|] == a;
  }

  /** The page refreshes to the URL it was built with, when that URL holds no `"`. */
  lemma RefreshUrlOfPage(url: string)
    requires '"' !in url
    ensures RefreshUrl(RedirectPage(url)) == Some(url)
  {
    assert RedirectPage(url) == PageHead + (url + PageTail);
    SplitAfterPrefix(PageHead, url + PageTail);
    assert PageTail[0] == '"';
    UpToQuoteStops(url, PageTail);
  }

  /** The reply the handler writes for one backend response. */
  function WpLoginResponse(target: string, req: Request, res: BackendResponse): Reply
    requires PlainOrigin(target)
  {
    if IsPostpass(req.url) then
      var location := RedirectTarget(req);
      var base: HeaderList := [("Location", Str(location)), ("Content-Type", Str("text/html"))];
      var headers := match CookiesOf(Lookup(res.headers, "set-cookie"))
        case Some(cookies) => Assigned(base, "Set-Cookie", Strs(StripDomains(cookies)))
        case None => base;
      Emitted(302, headers, Html(RedirectPage(location)))
    else
      Emitted(res.status, RewriteLocation(target, req.host, res.headers), Raw(Concat(res.chunks)))
  }

  /** A password submission is answered with a 302 to the Referer, or to the proxy base when
      there is none, and a page that refreshes to the same URL. */
  lemma PostpassRedirects(target: string, req: Request, res: BackendResponse)
    requires PlainOrigin(target) && IsPostpass(req.url)
    ensures var r := WpLoginResponse(target, req, res);
      && r.Emitted? && r.status == 302
      && Lookup(r.headers, "Location") == Some(Str(RedirectTarget(req)))
      && Lookup(r.headers, "Content-Type") == Some(Str("text/html"))
      && r.body == Html(RedirectPage(RedirectTarget(req)))
      && ('"' !in RedirectTarget(req) ==> RefreshUrl(r.body.text) == Some(RedirectTarget(req)))
    ensures req.referer.Some? && req.referer.value != "" ==> RedirectTarget(req) == req.referer.value
    ensures (req.referer.None? || req.referer == Some("")) ==> RedirectTarget(req) == BaseUrl(req.host)
  {
    var location := RedirectTarget(req);
    var base: HeaderList := [("Location", Str(location)), ("Content-Type", Str("text/html"))];
    match CookiesOf(Lookup(res.headers, "set-cookie")) {
      case Some(cookies) =>
        LookupAssigned(base, "Set-Cookie", Strs(StripDomains(cookies)), "Location");
        LookupAssigned(base, "Set-Cookie", Strs(StripDomains(cookies)), "Content-Type");
      case None =>
    }
    if '"' !in location {
      RefreshUrlOfPage(location);
    }
  }

  /** The redirect carries `Set-Cookie` only when the backend sent cookies; then it carries one
      cookie per backend cookie, in the same order, each with its domain attribute removed. */
  lemma PostpassCookies(target: string, req: Request, res: BackendResponse)
    requires PlainOrigin(target) && IsPostpass(req.url) && WellFormed(res.headers)
    ensures var r := WpLoginResponse(target, req, res);
      && (Lookup(r.headers, "Set-Cookie").Some? <==> Lookup(res.headers, "set-cookie").Some?)
      && (Lookup(res.headers, "set-cookie").Some? ==>
            Lookup(res.headers, "set-cookie").value.Strs? &&
            var sent := Lookup(res.headers, "set-cookie").value.items;
            var out := Lookup(r.headers, "Set-Cookie").value;
            && out.Strs? && |out.items| == |sent|
            && forall k :: 0 <= k < |sent| ==> out.items[k] == StripDomain(sent[k]))
  {
    CookiesOfWellFormed(res.headers);
    var base: HeaderList := [("Location", Str(RedirectTarget(req))), ("Content-Type", Str("text/html"))];
    assert base[1..] == [("Content-Type", Str("text/html"))];
    assert Lookup(base[1..][1..], "Set-Cookie") == None;
    assert Lookup(base, "Set-Cookie") == None;
    match CookiesOf(Lookup(res.headers, "set-cookie"))
    case Some(cookies) =>
      LookupAssigned(base, "Set-Cookie", Strs(StripDomains(cookies)), "Set-Cookie");
    case None =>
  }

  /** Any other response keeps its status and its body byte for byte; of its headers only
      `location` changes. */
  lemma OtherResponsesPassThrough(target: string, req: Request, res: BackendResponse, m: string)
    requires PlainOrigin(target) && !IsPostpass(req.url) && Distinct(res.headers)
    ensures var r := WpLoginResponse(target, req, res);
      && r.Emitted? && r.status == res.status && r.body == Raw(Concat(res.chunks))
      && Names(r.headers) == Names(res.headers)
      && Lookup(r.headers, m) ==
         if m != "location" then Lookup(res.headers, m)
         else match Lookup(res.headers, m)
           case Some(Str(l)) => Some(Str(RewriteOrigin(target, req.host, l)))
           case other => other
  {
    RewriteLocationEffect(target, req.host, res.headers, m);
  }

  /** The handler itself. */
  method OnProxyRes(target: string, req: Request, res: BackendResponse) returns (reply: Reply)
    requires PlainOrigin(target) && WellFormed(res.headers)
    ensures reply == WpLoginResponse(target, req, res)
  {
    if IsPostpass(req.url) {
      var referer := RedirectTarget(req);
      var setCookie := CookiesOf(Lookup(res.headers, "set-cookie"));
      if setCookie.Some? {
        setCookie := Some(StripDomains(setCookie.value));
      }
      var headers := new HeaderTable([("Location", Str(referer)), ("Content-Type", Str("text/html"))]);
      if setCookie.Some? {
        headers.Set("Set-Cookie", Strs(setCookie.value));
      }
      return Emitted(302, headers.entries, Html(RedirectPage(referer)));
    } else {
      var chunks: seq<Bytes> := [];
      for k := 0 to |res.chunks|
        invariant chunks == res.chunks[..k]
      {
        chunks := chunks + [res.chunks[k]];
      }
      assert chunks == res.chunks;
      var body := Concat(chunks);
      var headers := new HeaderTable(res.headers);
      RewriteLocationIn(headers, target, req.host);
      return Emitted(res.status, headers.entries, Raw(body));
    }
  }
}

=== FILE: wrappers.dfy ===
/** The optional value used wherever the proxy reads something that may be absent
    (a header, an environment variable) or calls something that may fail (a codec). */
module Wrappers {

  datatype Option<+T> = None | Some(value: T)
}
